=== FILE: README.md ===
# ml-image-tiler, modelled in Dafny

The tiler cuts raster images into a `rows` by `cols` grid and saves every
grid cell as its own file, `<stem>_tile_<i>_<j><suffix>`, in an output
directory. It works on one image or on every supported image directly
inside a directory. This project models the logic of `tile.py` that is
not image-codec or filesystem plumbing, and proves properties of it:

- the grid arithmetic of `tile_image`. Tile sizes come from floor
  division, cells are visited in row-major order, and each cell gets its
  own crop box.
- the dimension argument parser of `main`. It reads `"RxC"` in either
  letter case and accepts only positive integers.
- the tile file name scheme, plus pathlib's stem/suffix split of a file name.
- the supported-format filter of `process_directory`.
- the save-or-skip rule for existing output files. The output directory
  is modelled as a map from file name to content.
- the dispatch of `main`. It either tiles one file, walks a directory, or
  reports a bad argument.

Modules, leaves first:

| file | module | contents |
|---|---|---|
| base.dfy | `Base` | `Option` and `Result` |
| strings.dfy | `Strings` | ASCII lower-casing, decimal digits, `str.split` on one character and its inverse `Join` |
| grid.dfy | `Grid` | `TileSpec`, `Cell`, `Rect`, the row-major enumeration `Cells`, `CellRect`, the pixel locator `PixelCell` |
| dimensions.dfy | `Dimensions` | `ParseDimensions`, its inverse `FormatDimensions`, the documented examples |
| naming.dfy | `Naming` | `Stem`/`Suffix`, `IsSupported`, `TileName` and its inverse `ParseTileName` |
| output.dfy | `Output` | the output directory (`Dir`), `Save` with its save/skip log |
| tiler.dfy | `Tiler` | `TileImage`, `Selected`, `WalkEntries`, `ProcessDirectory`, `RunCommand`, and what each tile of a run holds |
| scenarios.dfy | `Scenarios` | concrete runs: a listing filtered, and `photo.png` tiled 2 by 2 |

The image codec is abstracted as follows. Opening an image yields
`ImageData`: `Missing` (file not found), `Corrupt` (any other decode
failure) or `Pixels(width, height)`. A saved tile's content is
`Crop(source, rect)`: the crop of `rect` out of the image `source`. A
file the tiler did not write is `Foreign(id)`. The listing of a directory
is a parameter (`seq<Entry>`), in whatever order the filesystem yields it.

## Model

| member | source | states |
|---|---|---|
| Grid.TileWidth | tile.py:20 | the tile width `tw` is the floor quotient of the image width by `cols`: `cols*tw <= width < cols*tw + cols` |
| Grid.TileHeight | tile.py:21 | the tile height `th` is the floor quotient of the image height by `rows`: `rows*th <= height < rows*th + rows` |
| Grid.RowFrom | tile.py:27 | one pass of the inner loop yields the cells `(i, j), (i, j+1), …, (i, cols-1)` |
| Grid.RowsFrom | tile.py:26-27 | the outer loop from row `i` yields `(rows-i)*cols` cells, the one at position `k` being `(i + k / cols, k % cols)` |
| Grid.Cells | tile.py:26-27 | the nested loops yield exactly `rows*cols` cells, position `k` holding cell `(k / cols, k % cols)` |
| Grid.CellIndexInverse | tile.py:26-27 | a grid cell's position `i*cols + j` is below `rows*cols` and maps back to the cell |
| Grid.CellAtInverse | tile.py:26-27 | a position below `rows*cols` names a grid cell whose position is that number |
| Grid.CellsRowMajor | tile.py:26-27 | the enumeration contains a cell exactly when it is in the grid, and strictly increases in (row, col) order: `i` outer, `j` inner |
| Grid.CellAtMonotone | tile.py:26-27 | a later position of the enumeration holds a lexicographically later cell |
| Grid.CellRect | tile.py:28-31 | cell `(i, j)` is cut as the box from `(j*tw, i*th)` to `(j*tw + tw, i*th + th)`; its shape and bounds are proved by `CellRectShape`, and its disjointness by `TilesDisjoint` |
| Grid.CellRectShape | tile.py:20-31 | every crop box is `width / cols` wide and `height / rows` high, and lies inside the image (`0 <= left`, `right <= width`, `0 <= upper`, `lower <= height`) |
| Grid.PixelCellExact | tile.py:28-31 | a pixel lies in the crop box of cell `c` exactly when the locator `PixelCell` returns `c`, so each pixel belongs to at most one tile |
| Grid.TilesDisjoint | tile.py:28-31 | crop boxes of distinct cells share no pixel (half-open intervals) |
| Grid.TilesCoverage | tile.py:20-31 | the union of the crop boxes is exactly `[0, cols*tw) × [0, rows*th)`; the dropped right margin is narrower than `cols` pixels and the bottom margin shorter than `rows` |
| Grid.HalvesScenario | tile.py:20-31 | a 100 by 100 image on a 2 by 2 grid has cell `(i, j)` cut as the 50 by 50 square at `(50j, 50i)` |
| Strings.Lower | tile.py:68 | ASCII lower-casing, character by character; `LowerShape` and `LowerAppend` state its properties |
| Strings.LowerShape | tile.py:68 | the lower-cased string has the same length, holds no upper-case ASCII letter, and differs from the input only at its upper-case letters, each moved to its lower-case counterpart |
| Strings.NatToString | tile.py:35 | `str(i)` is a non-empty digit string, one character long exactly for `i < 10`, with no leading zero except for `0` itself |
| Strings.DigitsValueOfNatToString | tile.py:35 | reading back the decimal rendering of `n` gives `n` |
| Strings.NatToStringInjective | tile.py:35 | distinct numbers render differently |
| Strings.Split | tile.py:106 | `s.split(sep)` yields at least one part, none containing `sep`, whose join with `sep` is `s` |
| Strings.SplitJoin | tile.py:106 | splitting the join of `sep`-free parts returns those parts, so the split is unique |
| Strings.SplitCons | tile.py:106 | a `sep`-free prefix followed by `sep` is split off as the first part |
| Dimensions.ParseInt | tile.py:106 | `int()` of a part succeeds exactly on an optional minus sign followed by at least one decimal digit, of any length (CPython's digit limit is left out) |
| Dimensions.ParseIntToString | tile.py:106 | `int(str(n)) == n` for every integer, over the model's unbounded `int` and `str` |
| Dimensions.ParseDimensions | tile.py:106-108 | the spec is read iff the lower-cased string splits on `x` into exactly two integer parts that are both positive, and the result holds those two values; a refusal names the input |
| Dimensions.ParseFormatRoundTrip | tile.py:106-109 | every grid spec is read back from its spelling `"<rows>x<cols>"`, over the model's unbounded `int` and `str` |
| Dimensions.ParseIgnoresCase | tile.py:106 | two inputs equal after lower-casing are accepted or refused together, with the same grid |
| Dimensions.AcceptedExamples | tile.py:106-109 | `"2x2"` reads as (2, 2) and `"3X4"` as (3, 4) |
| Dimensions.SplitTwo | tile.py:106 | a string with one `x` between two `x`-free parts splits into exactly those two parts |
| Dimensions.ZeroRowsRefused | tile.py:106-108 | `"0x2"` is refused as not positive, and the refusal names `"0x2"` |
| Dimensions.NegativeColsRefused | tile.py:106-108 | `"2x-1"` is refused as not positive, and the refusal names `"2x-1"` |
| Dimensions.NonIntegerRefused | tile.py:106 | `"abc"` is refused because its single part `"abc"` is not an integer |
| Dimensions.ThreePartsRefused | tile.py:106 | `"2x2x2"` is refused as having too many parts to unpack |
| Naming.LastIndexOf | tile.py:23-24 | the result is the position of a `c` with no `c` after it, or -1 when there is none |
| Naming.Suffix | tile.py:24 | a suffix is empty or a dot followed by at least one character and no further dot; it ends the name; it is non-empty exactly when the last dot of the name is neither its first nor its last character |
| Naming.SuffixRule | tile.py:24 | a name has a suffix exactly when some dot, neither its first nor its last character, has no dot after it |
| Naming.Stem | tile.py:23 | the stem is the name without its suffix; `StemSuffixSplit` proves the two rejoin to the name |
| Naming.StemSuffixSplit | tile.py:23-24 | stem followed by suffix is the whole name, and a name with a suffix has a non-empty stem |
| Naming.TileName | tile.py:35 | tile `(i, j)` of an image is named `<stem>_tile_<i>_<j><suffix>`; `ParseTileNameRoundTrip` and `TileNameInjective` prove the cell can be read back and distinct cells get distinct names |
| Naming.IsSupported | tile.py:66-68 | a name is supported when its lower-cased suffix is one of the six formats; `FormatExamples` and `SelectedMembers` carry its consequences |
| Naming.ParseTileNameRoundTrip | tile.py:35 | a tile name reads back as the `(i, j)` it was made from |
| Naming.TileNameInjective | tile.py:35 | for a fixed stem and suffix, two tile names are equal iff their cells are |
| Naming.TileNameDetermines | tile.py:35 | a tile name of a supported image determines the image's name and the cell: two such names are equal only for the same image and the same `(i, j)` |
| Naming.TileNameExamples | tile.py:35 | the tiles of stem `photo` and suffix `.png` are named `photo_tile_0_0.png`, `photo_tile_0_1.png`, `photo_tile_1_0.png` and `photo_tile_1_1.png` |
| Naming.FormatExamples | tile.py:66-68 | `photo.PNG`, `scan.tiff` and `a.b.JpEg` are supported; `.png`, `notes.txt` and `png` are not |
| Output.Writes | tile.py:38-42 | a tile is written unless overwrite is off and its name exists; `SaveDistinct` proves each logged event follows this rule |
| Output.Save | tile.py:38-42 | saving logs one event per tile, in order. The directory's names afterwards are the old names plus the tile names. Without overwrite, existing files keep their content. Names outside the tiles are never touched. With overwrite, every tile is saved |
| Output.SaveDistinct | tile.py:38-42 | with distinct names, a tile is logged as saved exactly when overwrite is on or its name was absent, and a saved tile holds its own content afterwards |
| Output.SaveAllPresent | tile.py:38-40 | when every tile name already exists and overwrite is off, nothing changes and every tile is logged as skipped |
| Output.SaveIdempotent | tile.py:38-42 | after any run, a second run without overwrite changes nothing and skips every tile |
| Output.SaveStep | tile.py:36-43 | one turn of the loop keeps `Save`'s promises: handling the first tile and then the rest does what `Save` states for all tiles |
| Output.OverwriteFresh | tile.py:38-42 | with overwrite and distinct names, every tile holds its fresh content afterwards, whatever the directory held before |
| Output.OverwriteMatchesCleanRun | tile.py:38-42 | with overwrite, the tiles hold exactly what a run into an empty directory would have saved |
| Output.OverwriteIdempotent | tile.py:38-42 | with overwrite, running twice leaves the same directory as running once |
| Tiler.TileWrites | tile.py:26-35 | the writes of one image, one per cell in row-major order; `TileWritesAt`, `TileWritesDistinct` and `TileWritesNames` state their content |
| Tiler.TileWritesAt | tile.py:26-35 | tile `(i, j)` is produced at position `i*cols + j`, with name `TileName(stem, i, j, suffix)` and the crop of its cell |
| Tiler.TileWritesDistinct | tile.py:26-35 | no two tiles of an image share a name |
| Tiler.TileWritesNames | tile.py:26-35 | the tiles of an image are saved under exactly its `rows*cols` tile names |
| Tiler.TileImage | tile.py:17-48 | an image that cannot be opened reports not-found or decode error and leaves the directory unchanged. A decoded image adds exactly its tile names and logs `rows*cols` events. Without overwrite, no existing file changes. Files outside its tile names never change |
| Tiler.TileImageCell | tile.py:28-42 | tile `(i, j)` is logged as saved at position `i*cols + j` exactly when overwrite is on or its name was absent, and then holds the crop of cell `(i, j)` |
| Tiler.Selects | tile.py:68 | an entry is tiled when it is a file with a supported suffix; `SelectedMembers` proves the selection keeps exactly these |
| Tiler.Selected | tile.py:67-69 | the selected entries in listing order; `SelectedMembers`, `SelectedAppend` and `SelectedOne` state what it keeps and in which order |
| Tiler.SelectedMembers | tile.py:66-71 | an entry is tiled iff it is listed and is a file whose lower-cased suffix is one of `.png .jpg .jpeg .bmp .gif .tiff`; sub-directories and other entries are not |
| Tiler.SelectedAppend | tile.py:67-69 | selection keeps listing order: selecting from a concatenation concatenates the selections |
| Tiler.SelectedOne | tile.py:68 | a single entry is kept exactly when it is selected |
| Scenarios.ListingNames | tile.py:66-68 | `a.png` and `b.JPG` are supported and `notes.txt` is not |
| Scenarios.SelectionTail | tile.py:67-71 | from sub-directory `sub.png`, `notes.txt`, a special entry and `b.JPG`, only `b.JPG` is tiled |
| Scenarios.SelectionExample | tile.py:66-71 | from `a.png`, sub-directory `sub.png`, `notes.txt`, a special entry and `b.JPG`, exactly `a.png` and `b.JPG` are tiled, in that order |
| Tiler.WalkEntries | tile.py:67-69 | a directory run reports one result per selected file, in listing order; each reports not-found exactly when that file is missing, a decode error exactly when it is corrupt, and otherwise `rows*cols` events; what each tile holds and what is logged for it is stated by `WalkEntriesTile` |
| Tiler.TileNameNotOf | tile.py:35 | no tile name of one supported image is a tile name of a differently named image |
| Tiler.TileNameNotProduced | tile.py:35 | a tile name of an image is produced by no listing that does not hold that image's name |
| Tiler.SelectedBeforePrefix | tile.py:67-69 | the count `SelectedBefore(entries, k)` is the number of selected entries among the first `k` |
| Tiler.ReportsHead | tile.py:67-69 | when the first entry is selected, its report comes first, ahead of the reports of the rest of the listing |
| Tiler.WalkFirstTile | tile.py:28-42 | the first entry, when selected and decoded, has its tile `(i, j)` hold the crop of its cell exactly when the save-or-skip rule writes it over the starting directory (and otherwise the old content), and its report, the first one, logs the tile as saved exactly then |
| Tiler.WalkEntriesSaved | tile.py:28-42 | after a directory run, tile `(i, j)` of the `k`-th entry holds the crop of cell `(i, j)` of that image when the save-or-skip rule writes it over the starting directory, and its old content otherwise |
| Tiler.DirHead | tile.py:67-69 | a directory run whose first entry is selected ends in the directory the rest of the run leaves after that entry is tiled |
| Tiler.WalkSkipsHead | tile.py:67-69 | a directory run passes over a first entry it does not select: the run equals the run over the rest of the listing |
| Tiler.WalkEntriesLogged | tile.py:36-43 | the report of the `k`-th entry is the one after the reports of the selected entries before it, names that entry, and logs tile `(i, j)` at position `i*cols + j` as saved exactly when the rule writes it over the starting directory |
| Tiler.WalkEntriesTile | tile.py:28-43 | both: a directory run's report for the `k`-th entry, at position `|Selected(entries[..k])|`, and its tile `(i, j)` follow the save-or-skip rule over the starting directory |
| Tiler.WalkEntriesKeys | tile.py:67-69 | a directory run adds exactly the tile names of the selected images that open |
| Tiler.WalkEntriesUntouched | tile.py:38-42 | a directory run changes no file outside the tile names it produces |
| Tiler.WalkEntriesKeeps | tile.py:38-40 | without overwrite, a directory run changes no existing file |
| Tiler.WalkEntriesDir | tile.py:67-69 | a directory run adds exactly the tile names of the selected images that open. Without overwrite it changes no existing file. Files outside those names never change |
| Tiler.ProcessDirectory | tile.py:60-71 | an input that is not a directory is refused with no effect. Otherwise each selected file is reported in listing order, with not-found or decode error exactly when that file is missing or corrupt. Exactly the produced tile names are added, files outside them never change, and existing files are kept when overwrite is off; `ProcessDirectoryTile` states each tile's content and log entry |
| Tiler.ProcessDirectoryTile | tile.py:60-71 | for a directory input, the `k`-th entry's report and its tile `(i, j)` follow the save-or-skip rule over the starting directory, as in `WalkEntriesTile` |
| Tiler.WalkAllPresent | tile.py:38-40 | a directory run without overwrite over a directory holding every tile name changes nothing |
| Tiler.DirectoryIdempotent | tile.py:60-71 | a second directory run without overwrite leaves the output directory as the first left it |
| Tiler.RunCommand | tile.py:105-123 | a bad grid spec is reported with its input string and writes nothing. A non-existent input path is reported and writes nothing. A file input is reported as one image, a directory input as one result per selected file, each missing or corrupt exactly as its file is. A run adds exactly the tile names it targets and changes no file outside them. Without overwrite, no existing file changes |
| Tiler.RunIdempotent | tile.py:105-121 | re-running a command without overwrite leaves the output directory as the first run left it |
| Tiler.SingleImageRun | tile.py:105-118 | a command whose input is a file and whose grid spec parses tiles that one file with that grid, and reports its result |
| Tiler.DirectoryRun | tile.py:105-121 | a command whose input is a directory and whose grid spec parses walks that directory with that grid, and reports its results |
| Tiler.SingleImageTile | tile.py:105-118 | a command whose input is an image that opens leaves tile `(i, j)` holding the crop of cell `(i, j)` when the save-or-skip rule writes it, and logs it as saved at position `i*cols + j` exactly then |
| Tiler.DirectoryRunTile | tile.py:105-121 | a command whose input is a directory leaves tile `(i, j)` of its `k`-th entry holding the crop of that cell when the rule writes it, and logs it as saved exactly then in that entry's report |
| Scenarios.ScenarioNames | tile.py:20-43 | the command `photo.png` (100 by 100) with `"2x2"`, into an empty directory, produces exactly `photo_tile_0_0.png` … `photo_tile_1_1.png` |
| Scenarios.ScenarioTile | tile.py:20-42 | that command logs four events, and tile `(i, j)` is logged as saved at position `2i+j` and holds the 50 by 50 square at `(50j, 50i)` |
| Tiler.TwoByTwoNames | tile.py:26-35 | on a 2 by 2 grid an image gets exactly the tiles `(0, 0)`, `(0, 1)`, `(1, 0)` and `(1, 1)` |
| Scenarios.PhotoTileNames | tile.py:23-35 | the tile names of `photo.png` on a 2 by 2 grid are exactly `photo_tile_<i>_<j>.png` for `i, j` in `{0, 1}` |
| Scenarios.PhotoStem | tile.py:23-24 | `photo.png` has stem `photo` and suffix `.png` |

## Notes on the source's behaviour

- Validation order. `main` creates the output directory (`tile.py:114`)
  before it checks the input path (`tile.py:116-123`). So only a bad grid
  spec is guaranteed to leave the filesystem untouched. The model does not
  represent whether the output directory exists.
- Missing images. Only `FileNotFoundError` gets the not-found message
  (`tile.py:45-46`). Every other failure to open or decode goes to the
  generic handler (`tile.py:47-48`). `ImageData.Missing` and `Corrupt`
  follow that split.
- Bad grid specs. The message printed at `tile.py:111` carries the reason
  for the rejection: a part that is not an integer, too few or too many
  parts to unpack, or a non-positive value. `map(int, …)` converts the parts
  left to right as the unpacking at `tile.py:106` draws them. It therefore
  converts a third part before it reports "too many values".
  `ParseDimensions` keeps that order in its `Reason`.
- Directory listings. The directory-run lemmas about one entry's tiles
  (`WalkEntriesTile` and the lemmas built on it) assume the listing
  names no file twice (`DistinctListing`), as a directory listing never
  does.
- The single-file path. The format filter (`tile.py:68`) is applied only
  by `process_directory`; a file input reaches `tile_image` whatever its
  suffix (`tile.py:116-118`). The tiles are saved under the input's own
  suffix (`tile.py:35`, `42`). PIL picks the encoder from that suffix and
  fails on one it does not know (no suffix, `.txt`). The generic handler
  (`tile.py:47-48`) then reports the image and nothing is written. The
  model treats every write as succeeding (see "Left out"), so for such an
  input it reports `Tiled` and adds the tile names.

## Left out

- PIL decoding, cropping and saving (`tile.py:18`, `33`, `42`). These are
  calls into the imaging library. Decoding becomes the `ImageData`
  parameter, and crop+save becomes a write of `Crop(source, rect)`.
- Failures of crop or save: when `tw` or `th` is 0, when the tile's suffix
  names no format PIL can write (a single-file input without a supported
  suffix), or any other exception raised part-way through an image's
  tiles. In the source such an
  exception abandons the remaining tiles of that image, with the earlier
  ones already written. The model treats every write as succeeding.
- Filesystem effects: `mkdir`, the `exists` test (replaced by map
  membership), `is_file`/`is_dir` (replaced by the `Entry` and `InputPath`
  variants), and the order of `iterdir` (a listing parameter). The model
  does not cover an output directory that is also the input directory,
  where fresh tiles could show up in the listing being walked.
- Paths. Images are identified by their file name; directory components
  and the join with the output directory are not modelled.
- argparse, its defaults (`./tiled_images`, `2x2`) and all printed
  diagnostics (`tile.py:76-103`, `39`, `43`, `46`, `48`, `61`, `71`, `111`,
  `117`, `120`, `123`). The event log and the report datatypes stand in
  for the messages.
- Dimensions.ParseInt: Python's `int()` also accepts surrounding
  whitespace, a `+` sign, `_` digit separators and non-ASCII decimal
  digits. The model accepts only an optional `-` followed by ASCII digits.
  In the other direction, CPython 3.11 and later (and the security
  releases of 3.7-3.10) refuse a decimal string of more than 4300 digits
  (`sys.int_info.default_max_str_digits`) with `ValueError`. The source
  reports such a grid spec as invalid (`tile.py:110-111`). The model has
  no digit limit, so it accepts such a spec, and `ParseIntToString`,
  `ParseFormatRoundTrip` and `ParseDimensions` hold over unbounded
  integers. The limit is a setting of the interpreter, not of `tile.py`.
- Strings.Lower: Python's `str.lower()` is Unicode-aware; the model
  lower-cases ASCII letters only. For the `x` separator and the suffix
  set this makes no difference: no other character lower-cases to `x` or
  to a single ASCII letter of a supported suffix.
- Naming.Suffix: follows pathlib's rule for the final suffix (the last
  dot, when it is neither the first nor the last character of the name).
  It does not cover variations between Python versions for names ending
  in a dot.

=== FILE: base.dfy ===
/** Failure-carrying wrappers shared by the rest of the model. */
module Base {

  /** A value that may be absent. */
  datatype Option<+T> = None | Some(value: T)

  /** Either a value or the error that stopped its computation. */
  datatype Result<+T, +E> = Ok(value: T) | Err(error: E)
}

=== FILE: dimensions.dfy ===
/** The grid-spec argument of the command line: a string "RxC" (the
    separator in either case) read as a pair of positive integers. */
module Dimensions {
  import opened Base
  import opened Strings
  import opened Grid

  /** Why a dimension string was refused. All of these surface as the one
      "invalid dimensions" diagnostic naming the input. */
  datatype Reason =
    | NotAnInteger(part: string)   // int() rejected this part
    | TooFewParts                  // fewer than two parts to unpack
    | TooManyParts                 // more than two parts to unpack
    | NotPositive                  // rows <= 0 or cols <= 0

  datatype DimensionError = InvalidDimensions(input: string, reason: Reason)

  /** The integer literals accepted for a part: an optional minus sign
      followed by at least one decimal digit. */
  predicate IsIntLiteral(p: string) {
    || (|p| >= 1 && AllDigits(p))
    || (|p| >= 2 && p[0] == '-' && AllDigits(p[1..]))
  }

  /** Conversion of one part with `int()`. */
  function ParseInt(p: string): (r: Option<int>)
    ensures r.Some? <==> IsIntLiteral(p)
    ensures r.Some? && r.value < 0 ==> p[0] == '-'
  {
    if |p| >= 2 && p[0] == '-' && AllDigits(p[1..]) then Some(-(DigitsValue(p[1..]) as int))
    else if |p| >= 1 && AllDigits(p) then Some(DigitsValue(p))
    else None
  }

  /** Decimal rendering of an integer, as Python's `str(n)`. */
  function IntToString(n: int): string {
    if n < 0 then "-" + NatToString(-n) else NatToString(n)
  }

  /** `int()` reads back what `str()` writes. */
  lemma ParseIntToString(n: int)
    ensures ParseInt(IntToString(n)) == Some(n)
  {
    var s := IntToString(n);
    if n < 0 {
      var d := NatToString(-n);
      assert ParseInt(s) == Some(n) by {
        assert |s| >= 2 && s[0] == '-' && s[1..] == d by {
          assert s == "-" + d;
        }
        DigitsValueOfNatToString(-n);
      }
    } else {
      assert ParseInt(s) == Some(n) by {
        assert |s| >= 1 && AllDigits(s) && s[0] != '-' by {
          assert IsDigit(s[0]);
        }
        DigitsValueOfNatToString(n);
      }
    }
  }

  /** Reads the grid spec: lower-case, split on 'x', convert the parts
      left to right and unpack exactly two of them, then demand both be
      positive. Unpacking converts a third part before it reports that
      there are too many, so a bad third part is reported as such. */
  function ParseDimensions(s: string): (r: Result<TileSpec, DimensionError>)
    ensures r.Err? ==> r.error.input == s
    ensures r.Ok? <==>
      var parts := Split(Lower(s), 'x');
      && |parts| == 2
      && IsIntLiteral(parts[0]) && IsIntLiteral(parts[1])
      && ParseInt(parts[0]).value > 0 && ParseInt(parts[1]).value > 0
    ensures r.Ok? ==>
      var parts := Split(Lower(s), 'x');
      |parts| == 2 && ParseInt(parts[0]) == Some(r.value.rows as int) && ParseInt(parts[1]) == Some(r.value.cols as int)
  {
    var parts := Split(Lower(s), 'x');
    var first := ParseInt(parts[0]);
    if first.None? then Err(InvalidDimensions(s, NotAnInteger(parts[0])))
    else if |parts| < 2 then Err(InvalidDimensions(s, TooFewParts))
    else
      var second := ParseInt(parts[1]);
      if second.None? then Err(InvalidDimensions(s, NotAnInteger(parts[1])))
      else if |parts| > 2 then
        if ParseInt(parts[2]).None? then Err(InvalidDimensions(s, NotAnInteger(parts[2])))
        else Err(InvalidDimensions(s, TooManyParts))
      else if first.value <= 0 || second.value <= 0 then Err(InvalidDimensions(s, NotPositive))
      else Ok(TileSpec(first.value, second.value))
  }

  /** The canonical spelling of a grid spec, e.g. "3x4". */
  function FormatDimensions(spec: TileSpec): string {
    NatToString(spec.rows) + "x" + NatToString(spec.cols)
  }

  /** A digit string is unchanged by lower-casing. */
  lemma LowerDigits(s: string)
    requires AllDigits(s)
    ensures Lower(s) == s
  {
  }

  /** Every grid spec is read back from its canonical spelling. */
  lemma {:induction false} ParseFormatRoundTrip(spec: TileSpec)
    ensures ParseDimensions(FormatDimensions(spec)) == Ok(spec)
  {
    var a, b := NatToString(spec.rows), NatToString(spec.cols);
    var s := FormatDimensions(spec);
    LowerDigits(a);
    LowerDigits(b);
    LowerAppend(a + "x", b);
    LowerAppend(a, "x");
    assert Lower("x") == "x";
    assert Lower(s) == a + "x" + b;
    assert a + "x" + b == Join([a, b], 'x');
    assert 'x' !in a && 'x' !in b by {
      assert forall k :: 0 <= k < |a| ==> IsDigit(a[k]);
      assert forall k :: 0 <= k < |b| ==> IsDigit(b[k]);
    }
    SplitJoin([a, b], 'x');
    assert Split(Lower(s), 'x') == [a, b];
    ParseIntToString(spec.rows);
    ParseIntToString(spec.cols);
    assert ParseInt(a) == Some(spec.rows as int);
    assert ParseInt(b) == Some(spec.cols as int);
  }

  /** Only the lower-cased text matters: two spellings that differ in the
      case of their letters are accepted or refused together, with the same
      grid. */
  lemma ParseIgnoresCase(s: string, t: string)
    requires Lower(s) == Lower(t)
    ensures ParseDimensions(s).Ok? <==> ParseDimensions(t).Ok?
    ensures ParseDimensions(s).Ok? ==> ParseDimensions(s).value == ParseDimensions(t).value
  {
  }

  /** The documented accepted examples: "2x2" and "3X4". */
  lemma AcceptedExamples()
    ensures ParseDimensions("2x2") == Ok(TileSpec(2, 2))
    ensures ParseDimensions("3X4") == Ok(TileSpec(3, 4))
  {
    assert FormatDimensions(TileSpec(2, 2)) == "2x2";
    ParseFormatRoundTrip(TileSpec(2, 2));
    assert Lower("3X4") == "3x4";
    assert FormatDimensions(TileSpec(3, 4)) == "3x4";
    ParseFormatRoundTrip(TileSpec(3, 4));
    ParseIgnoresCase("3X4", "3x4");
  }

  /** Splitting a two-part spelling "<a>x<b>" with no 'x' in either part. */
  lemma SplitTwo(a: string, b: string)
    requires 'x' !in a && 'x' !in b
    ensures Split(a + "x" + b, 'x') == [a, b]
  {
    assert a + "x" + b == Join([a, b], 'x');
    SplitJoin([a, b], 'x');
  }

  /** "0x2" is made of integers, but zero rows is not a grid. */
  lemma ZeroRowsRefused()
    ensures ParseDimensions("0x2") == Err(InvalidDimensions("0x2", NotPositive))
  {
    assert Lower("0x2") == "0" + "x" + "2";
    SplitTwo("0", "2");
    assert ParseInt("0") == Some(0);
    assert ParseInt("2") == Some(2);
  }

  /** "2x-1" is made of integers, but minus one columns is not a grid. */
  lemma NegativeColsRefused()
    ensures ParseDimensions("2x-1") == Err(InvalidDimensions("2x-1", NotPositive))
  {
    assert Lower("2x-1") == "2" + "x" + "-1";
    SplitTwo("2", "-1");
    assert "-1"[1..] == "1";
    assert ParseInt("2") == Some(2);
    assert ParseInt("-1") == Some(-1);
  }

  /** "abc" is not an integer. */
  lemma NonIntegerRefused()
    ensures ParseDimensions("abc") == Err(InvalidDimensions("abc", NotAnInteger("abc")))
  {
    assert Lower("abc") == "abc";
    SplitNoSeparator("abc", 'x');
    assert !IsIntLiteral("abc");
  }

  /** "2x2x2" has three parts where two are unpacked. */
  lemma ThreePartsRefused()
    ensures ParseDimensions("2x2x2") == Err(InvalidDimensions("2x2x2", TooManyParts))
  {
    assert Lower("2x2x2") == "2" + "x" + "2x2";
    SplitCons("2", 'x', "2x2");
    assert "2x2" == "2" + "x" + "2";
    SplitTwo("2", "2");
    assert Split(Lower("2x2x2"), 'x') == ["2", "2", "2"];
    assert ParseInt("2") == Some(2);
  }
}

=== FILE: grid.dfy ===
/** The rectangle arithmetic of `tile_image`: the grid spec, the row-major
    enumeration of its cells and the crop box of each cell. */
module Grid {
  import opened Base

  type Pos = n: nat | n > 0 witness 1

  /** The grid a run cuts every image into: `rows` by `cols` cells. */
  datatype TileSpec = TileSpec(rows: Pos, cols: Pos)

  /** A grid cell, `row` counted from the top and `col` from the left. */
  datatype Cell = Cell(row: nat, col: nat)

  /** A crop box (left, upper, right, lower); the pixels it holds are the
      half-open ranges [left, right) by [upper, lower). */
  datatype Rect = Rect(left: int, upper: int, right: int, lower: int)

  predicate InGrid(spec: TileSpec, c: Cell) {
    c.row < spec.rows && c.col < spec.cols
  }

  predicate HasPixel(r: Rect, x: int, y: int) {
    r.left <= x < r.right && r.upper <= y < r.lower
  }

  /** Width of every tile: the image width floor-divided by the columns. */
  function TileWidth(width: nat, spec: TileSpec): (tw: nat)
    ensures spec.cols * tw <= width < spec.cols * tw + spec.cols
  {
    width / spec.cols
  }

  /** Height of every tile: the image height floor-divided by the rows. */
  function TileHeight(height: nat, spec: TileSpec): (th: nat)
    ensures spec.rows * th <= height < spec.rows * th + spec.rows
  {
    height / spec.rows
  }

  /** The crop box of cell `c` in a `width` by `height` image. */
  function CellRect(width: nat, height: nat, spec: TileSpec, c: Cell): Rect {
    var tw := TileWidth(width, spec);
    var th := TileHeight(height, spec);
    var left := c.col * tw;
    var upper := c.row * th;
    Rect(left, upper, left + tw, upper + th)
  }

  /** Position of a cell in the row-major enumeration. */
  function CellIndex(spec: TileSpec, c: Cell): nat {
    c.row * spec.cols + c.col
  }

  /** The cell at position `k` of the row-major enumeration. */
  function CellAt(spec: TileSpec, k: nat): Cell {
    Cell(k / spec.cols, k % spec.cols)
  }

  /** Row-major order: the strict lexicographic order on (row, col). */
  predicate Before(a: Cell, b: Cell) {
    a.row < b.row || (a.row == b.row && a.col < b.col)
  }

  /** `CellIndex` and `CellAt` are inverse bijections between the cells of
      the grid and the positions 0 .. rows*cols-1. This lemma and the next
      give the two directions. A cell of the grid has a position below
      rows*cols, and that position leads back to the cell. */
  lemma CellIndexInverse(spec: TileSpec, c: Cell)
    requires InGrid(spec, c)
    ensures CellIndex(spec, c) < spec.rows * spec.cols && CellAt(spec, CellIndex(spec, c)) == c
  {
    MulLeq(c.row + 1, spec.rows, spec.cols);
    DivModUnique(CellIndex(spec, c), spec.cols, c.row, c.col);
  }

  /** A position below rows*cols names a cell of the grid, and that cell
      leads back to the position. */
  lemma CellAtInverse(spec: TileSpec, k: nat)
    requires k < spec.rows * spec.cols
    ensures InGrid(spec, CellAt(spec, k)) && CellIndex(spec, CellAt(spec, k)) == k
  {
    var q := k / spec.cols;
    assert k == q * spec.cols + k % spec.cols;
    if q >= spec.rows {
      MulLeq(spec.rows, q, spec.cols);
      assert false;
    }
  }

  lemma MulLeq(a: nat, b: nat, n: nat)
    requires a <= b
    ensures a * n <= b * n
  {
  }

  /** Floor division and remainder are determined by k == q*n + r with 0 <= r < n. */
  lemma DivModUnique(k: nat, n: Pos, q: nat, r: nat)
    requires k == q * n + r && r < n
    ensures k / n == q && k % n == r
  {
    var q', r' := k / n, k % n;
    assert k == q' * n + r';
    if q' < q {
      MulLeq(q' + 1, q, n);
      assert false;
    } else if q < q' {
      MulLeq(q + 1, q', n);
      assert false;
    }
  }

  /** Cells (i, j) .. (i, cols-1): one pass of the inner loop. */
  function RowFrom(spec: TileSpec, i: nat, j: nat): (cs: seq<Cell>)
    requires j <= spec.cols
    ensures |cs| == spec.cols - j
    ensures forall k :: 0 <= k < |cs| ==> cs[k] == Cell(i, j + k)
    decreases spec.cols - j
  {
    if j == spec.cols then [] else [Cell(i, j)] + RowFrom(spec, i, j + 1)
  }

  /** Position `k` past the first row lies one row further down at the same column. */
  lemma NextRow(n: Pos, k: nat)
    requires k >= n
    ensures (k - n) / n + 1 == k / n && (k - n) % n == k % n
  {
    var k' := k - n;
    DivModUnique(k, n, k' / n + 1, k' % n);
  }

  lemma RowsLength(m: Pos, n: nat)
    ensures m * n == n + (m - 1) * n
  {
  }

  /** One turn of the outer loop: row `i` followed by the rows after it
      keeps the row-major position formula. */
  lemma RowStep(spec: TileSpec, i: nat, row: seq<Cell>, rest: seq<Cell>)
    requires i < spec.rows
    requires |row| == spec.cols && forall k :: 0 <= k < |row| ==> row[k] == Cell(i, k)
    requires |rest| == (spec.rows - (i + 1)) * spec.cols
    requires forall k :: 0 <= k < |rest| ==> rest[k].row == i + 1 + k / spec.cols && rest[k].col == k % spec.cols
    ensures |row + rest| == (spec.rows - i) * spec.cols
    ensures forall k :: 0 <= k < |row + rest| ==> (row + rest)[k].row == i + k / spec.cols && (row + rest)[k].col == k % spec.cols
  {
    RowsLength(spec.rows - i, spec.cols);
    var cs := row + rest;
    forall k | 0 <= k < |cs|
      ensures cs[k].row == i + k / spec.cols && cs[k].col == k % spec.cols
    {
      if k < spec.cols {
        DivModUnique(k, spec.cols, 0, k);
        assert cs[k] == row[k];
      } else {
        NextRow(spec.cols, k);
        assert cs[k] == rest[k - spec.cols];
      }
    }
  }

  /** Rows i .. rows-1, each enumerated by the inner loop: the outer loop
      from row `i` on. */
  function RowsFrom(spec: TileSpec, i: nat): (cs: seq<Cell>)
    requires i <= spec.rows
    ensures |cs| == (spec.rows - i) * spec.cols
    ensures forall k :: 0 <= k < |cs| ==> cs[k].row == i + k / spec.cols && cs[k].col == k % spec.cols
    decreases spec.rows - i
  {
    if i == spec.rows then
      assert (spec.rows - i) * spec.cols == 0 * spec.cols == 0;
      []
    else
      var row := RowFrom(spec, i, 0);
      var rest := RowsFrom(spec, i + 1);
      RowStep(spec, i, row, rest);
      row + rest
  }

  /** Every cell of the grid in the order the nested loops of `tile_image`
      visit them: row `i` outer, column `j` inner. */
  function Cells(spec: TileSpec): (cs: seq<Cell>)
    ensures |cs| == spec.rows * spec.cols
    ensures forall k :: 0 <= k < |cs| ==> cs[k] == CellAt(spec, k)
  {
    RowsFrom(spec, 0)
  }

  /** The enumeration visits exactly the cells of the grid, each once, in
      strictly increasing row-major order. */
  lemma CellsRowMajor(spec: TileSpec)
    ensures forall c :: c in Cells(spec) <==> InGrid(spec, c)
    ensures forall k1, k2 :: 0 <= k1 < k2 < |Cells(spec)| ==> Before(Cells(spec)[k1], Cells(spec)[k2])
  {
    var cs := Cells(spec);
    forall c | InGrid(spec, c) ensures c in cs {
      CellIndexInverse(spec, c);
      assert cs[CellIndex(spec, c)] == c;
    }
    forall k | 0 <= k < |cs| ensures InGrid(spec, cs[k]) {
      CellAtInverse(spec, k);
    }
    forall k1, k2 | 0 <= k1 < k2 < |cs| ensures Before(cs[k1], cs[k2]) {
      CellAtMonotone(spec, k1, k2);
    }
  }

  /** Later positions hold later cells. */
  lemma CellAtMonotone(spec: TileSpec, k1: nat, k2: nat)
    requires k1 < k2
    ensures Before(CellAt(spec, k1), CellAt(spec, k2))
  {
    var a, b := CellAt(spec, k1), CellAt(spec, k2);
    assert k1 == a.row * spec.cols + a.col;
    assert k2 == b.row * spec.cols + b.col;
    if b.row < a.row {
      MulLeq(b.row + 1, a.row, spec.cols);
      assert false;
    }
  }

  /** Every crop box of the grid has the floor-divided tile size and lies
      inside the image. */
  lemma CellRectShape(width: nat, height: nat, spec: TileSpec, c: Cell)
    requires InGrid(spec, c)
    ensures var r := CellRect(width, height, spec, c);
      && r.right - r.left == width / spec.cols
      && r.lower - r.upper == height / spec.rows
      && 0 <= r.left && r.right <= width
      && 0 <= r.upper && r.lower <= height
  {
    var tw := TileWidth(width, spec);
    var th := TileHeight(height, spec);
    MulLeq(c.col + 1, spec.cols, tw);
    MulLeq(c.row + 1, spec.rows, th);
  }

  /** The pixel region the grid covers: [0, cols*tw) by [0, rows*th). */
  predicate Covered(width: nat, height: nat, spec: TileSpec, x: int, y: int) {
    && 0 <= x < spec.cols * TileWidth(width, spec)
    && 0 <= y < spec.rows * TileHeight(height, spec)
  }

  /** The cell whose tile holds pixel (x, y), if any. */
  function PixelCell(width: nat, height: nat, spec: TileSpec, x: int, y: int): Option<Cell> {
    if Covered(width, height, spec, x, y) then
      Some(Cell(y / TileHeight(height, spec), x / TileWidth(width, spec)))
    else None
  }

  /** One axis of the grid: the tiles [j*t, j*t+t) for j < n hold x
      exactly when x < n*t, and then only for j == x / t. */
  lemma AxisLocate(n: Pos, t: nat, j: nat, x: int)
    requires j < n
    ensures j * t <= x < j * t + t <==> (0 <= x < n * t && j == x / t)
  {
    if j * t <= x < j * t + t {
      MulLeq(j + 1, n, t);
      assert t > 0;
      DivModUnique(x, t, j, x - j * t);
    }
    if 0 <= x < n * t && j == x / t {
      assert t > 0;
    }
  }

  /** A pixel lies in the tile of cell `c` exactly when `PixelCell` names
      `c`. Hence tiles of distinct cells never share a pixel, and together
      they cover exactly the `Covered` region. */
  lemma PixelCellExact(width: nat, height: nat, spec: TileSpec, c: Cell, x: int, y: int)
    ensures PixelCell(width, height, spec, x, y) == Some(c)
        <==> InGrid(spec, c) && HasPixel(CellRect(width, height, spec, c), x, y)
  {
    var tw := TileWidth(width, spec);
    var th := TileHeight(height, spec);
    if InGrid(spec, c) {
      AxisLocate(spec.cols, tw, c.col, x);
      AxisLocate(spec.rows, th, c.row, y);
    }
    if PixelCell(width, height, spec, x, y) == Some(c) {
      assert tw > 0 && th > 0;
      if c.col >= spec.cols {
        MulLeq(spec.cols, c.col, tw);
        assert false;
      }
      if c.row >= spec.rows {
        MulLeq(spec.rows, c.row, th);
        assert false;
      }
      AxisLocate(spec.cols, tw, c.col, x);
      AxisLocate(spec.rows, th, c.row, y);
    }
  }

  /** Tiles of distinct cells have no pixel in common. */
  lemma TilesDisjoint(width: nat, height: nat, spec: TileSpec, c1: Cell, c2: Cell, x: int, y: int)
    requires InGrid(spec, c1) && InGrid(spec, c2) && c1 != c2
    ensures !(HasPixel(CellRect(width, height, spec, c1), x, y) && HasPixel(CellRect(width, height, spec, c2), x, y))
  {
    PixelCellExact(width, height, spec, c1, x, y);
    PixelCellExact(width, height, spec, c2, x, y);
  }

  /** The tiles together cover exactly [0, cols*tw) by [0, rows*th); the
      uncovered right margin is narrower than `cols` pixels and the bottom
      margin shorter than `rows` pixels. */
  lemma TilesCoverage(width: nat, height: nat, spec: TileSpec, x: int, y: int)
    ensures (exists c :: InGrid(spec, c) && HasPixel(CellRect(width, height, spec, c), x, y))
        <==> Covered(width, height, spec, x, y)
    ensures 0 <= width - spec.cols * TileWidth(width, spec) < spec.cols
    ensures 0 <= height - spec.rows * TileHeight(height, spec) < spec.rows
  {
    if Covered(width, height, spec, x, y) {
      var c := PixelCell(width, height, spec, x, y).value;
      PixelCellExact(width, height, spec, c, x, y);
    }
    if c :| InGrid(spec, c) && HasPixel(CellRect(width, height, spec, c), x, y) {
      PixelCellExact(width, height, spec, c, x, y);
    }
  }

  /** A 100 by 100 image on a 2 by 2 grid: cell (i, j) is the 50 by 50
      square at (50j, 50i), at position 2i+j of the enumeration. */
  lemma HalvesScenario(c: Cell)
    requires InGrid(TileSpec(2, 2), c)
    ensures CellRect(100, 100, TileSpec(2, 2), c) == Rect(50 * c.col, 50 * c.row, 50 * c.col + 50, 50 * c.row + 50)
    ensures CellIndex(TileSpec(2, 2), c) == 2 * c.row + c.col
  {
  }
}

=== FILE: naming.dfy ===
/** File names: the stem and suffix of a file name (pathlib's rule), the
    name each tile is saved under, and the formats a directory run picks up. */
module Naming {
  import opened Base
  import opened Strings

  /** Position of the last `c` in `s`, or -1 when there is none. */
  function LastIndexOf(s: string, c: char): (i: int)
    ensures -1 <= i < |s|
    ensures i >= 0 ==> s[i] == c
    ensures forall k :: i < k < |s| ==> s[k] != c
    decreases |s|
  {
    if |s| == 0 then -1
    else if s[|s| - 1] == c then |s| - 1
    else LastIndexOf(s[..|s| - 1], c)
  }

  /** The contract of `LastIndexOf` pins its result down: the position of
      a `c` with no `c` after it, or -1 when `s` holds no `c`. */
  lemma LastIndexOfUnique(s: string, c: char, i: int)
    requires -1 <= i < |s|
    requires i >= 0 ==> s[i] == c
    requires forall k :: i < k < |s| ==> s[k] != c
    ensures LastIndexOf(s, c) == i
  {
  }

  /** A name has a suffix when its last dot is neither its first nor its
      last character. */
  predicate HasSuffix(name: string) {
    var i := LastIndexOf(name, '.');
    0 < i < |name| - 1
  }

  /** The final extension of a file name, dot included, or "" when there is none. */
  function Suffix(name: string): (ext: string)
    ensures ext == "" || (|ext| >= 2 && ext[0] == '.')
    ensures forall k :: 1 <= k < |ext| ==> ext[k] != '.'
    ensures |ext| <= |name| && name[|name| - |ext|..] == ext
    ensures ext != "" <==> 0 < LastIndexOf(name, '.') < |name| - 1
  {
    if HasSuffix(name) then name[LastIndexOf(name, '.')..] else ""
  }

  /** pathlib's rule: a name has a suffix exactly when some dot that is
      neither its first nor its last character has no dot after it. */
  lemma SuffixRule(name: string)
    ensures Suffix(name) != "" <==> exists i :: 0 < i < |name| - 1 && name[i] == '.' && NoDotAfter(name, i)
  {
    var i := LastIndexOf(name, '.');
    if HasSuffix(name) {
      assert NoDotAfter(name, i);
    } else if j :| 0 < j < |name| - 1 && name[j] == '.' && NoDotAfter(name, j) {
      LastIndexOfUnique(name, '.', j);
      assert false;
    }
  }

  /** No dot follows position `i` of `name`. */
  predicate NoDotAfter(name: string, i: nat) {
    forall k :: i < k < |name| ==> name[k] != '.'
  }

  /** The file name without its final extension. */
  function Stem(name: string): string {
    if HasSuffix(name) then name[..LastIndexOf(name, '.')] else name
  }

  /** Stem and suffix split the name without loss, and a name that has a
      suffix keeps a non-empty stem (a leading dot does not start a suffix). */
  lemma StemSuffixSplit(name: string)
    ensures Stem(name) + Suffix(name) == name
    ensures Suffix(name) != "" ==> |Stem(name)| >= 1
  {
  }

  /** Suffixes of the image formats a directory run tiles. */
  const SupportedFormats: set<string> := {".png", ".jpg", ".jpeg", ".bmp", ".gif", ".tiff"}

  /** A file is tiled in a directory run when its suffix, lower-cased, is a supported format. */
  predicate IsSupported(name: string) {
    Lower(Suffix(name)) in SupportedFormats
  }

  /** The name tile (i, j) of an image is saved under:
      "<stem>_tile_<i>_<j><suffix>". */
  function TileName(stem: string, i: nat, j: nat, ext: string): string {
    stem + "_tile_" + NatToString(i) + "_" + NatToString(j) + ext
  }

  const TileInfix := "_tile_"

  /** Recovers the cell of a tile name made from the given stem and suffix. */
  function ParseTileName(stem: string, ext: string, name: string): Option<(nat, nat)> {
    var head := stem + TileInfix;
    if |name| < |head| + |ext| || name[..|head|] != head || name[|name| - |ext|..] != ext then None
    else
      var parts := Split(name[|head|..|name| - |ext|], '_');
      if |parts| == 2 && IsDigitString(parts[0]) && IsDigitString(parts[1])
      then Some((DigitsValue(parts[0]), DigitsValue(parts[1])))
      else None
  }

  predicate IsDigitString(s: string) {
    |s| >= 1 && AllDigits(s)
  }

  lemma NoUnderscoreInDigits(s: string)
    requires AllDigits(s)
    ensures '_' !in s
  {
  }

  /** A tile name reads back as the cell it was made for. */
  lemma {:induction false} ParseTileNameRoundTrip(stem: string, i: nat, j: nat, ext: string)
    ensures ParseTileName(stem, ext, TileName(stem, i, j, ext)) == Some((i, j))
  {
    var a, b := NatToString(i), NatToString(j);
    var name := TileName(stem, i, j, ext);
    var head := stem + TileInfix;
    var mid := a + "_" + b;
    assert name[..|head|] == head && name[|name| - |ext|..] == ext && name[|head|..|name| - |ext|] == mid by {
      assert name == head + mid + ext;
    }
    assert Split(mid, '_') == [a, b] by {
      NoUnderscoreInDigits(a);
      NoUnderscoreInDigits(b);
      assert mid == Join([a, b], '_');
      SplitJoin([a, b], '_');
    }
    assert IsDigitString(a) && IsDigitString(b) && DigitsValue(a) == i && DigitsValue(b) == j by {
      DigitsValueOfNatToString(i);
      DigitsValueOfNatToString(j);
    }
  }

  /** For a fixed stem and suffix, distinct cells get distinct tile names. */
  lemma TileNameInjective(stem: string, ext: string, i1: nat, j1: nat, i2: nat, j2: nat)
    ensures TileName(stem, i1, j1, ext) == TileName(stem, i2, j2, ext) <==> i1 == i2 && j1 == j2
  {
    ParseTileNameRoundTrip(stem, i1, j1, ext);
    ParseTileNameRoundTrip(stem, i2, j2, ext);
  }

  /** Text after the last `sep` is determined by the string: two ways of
      writing it as a prefix, `sep` and a `sep`-free tail are the same. */
  lemma SepTailUnique(x1: string, t1: string, x2: string, t2: string, sep: char)
    requires sep !in t1 && sep !in t2
    requires x1 + [sep] + t1 == x2 + [sep] + t2
    ensures x1 == x2 && t1 == t2
  {
    var m := x1 + [sep] + t1;
    LastIndexOfUnique(m, sep, |x1|);
    LastIndexOfUnique(m, sep, |x2|);
    assert x1 == m[..|x1|] && t1 == m[|x1| + 1..];
    assert x2 == m[..|x2|] && t2 == m[|x2| + 1..];
  }

  /** The fields of a tile name are determined by the name: the suffix runs
      from the last dot, the column and row are the digit fields before it,
      and the stem is what precedes "_tile_". */
  lemma TileNameParts(s1: string, a1: string, b1: string, e1: string, s2: string, a2: string, b2: string, e2: string)
    requires '_' !in a1 && '_' !in b1 && '_' !in a2 && '_' !in b2
    requires |e1| >= 1 && e1[0] == '.' && '.' !in e1[1..]
    requires |e2| >= 1 && e2[0] == '.' && '.' !in e2[1..]
    requires s1 + "_tile_" + a1 + "_" + b1 + e1 == s2 + "_tile_" + a2 + "_" + b2 + e2
    ensures s1 == s2 && a1 == a2 && b1 == b2 && e1 == e2
  {
    var h1, h2 := s1 + "_tile_" + a1 + "_" + b1, s2 + "_tile_" + a2 + "_" + b2;
    assert h1 + ['.'] + e1[1..] == h2 + ['.'] + e2[1..] by {
      assert e1 == ['.'] + e1[1..] && e2 == ['.'] + e2[1..];
      assert h1 + ['.'] + e1[1..] == h1 + e1;
      assert h2 + ['.'] + e2[1..] == h2 + e2;
    }
    SepTailUnique(h1, e1[1..], h2, e2[1..], '.');
    assert e1 == ['.'] + e1[1..] && e2 == ['.'] + e2[1..];
    var g1, g2 := s1 + "_tile_" + a1, s2 + "_tile_" + a2;
    assert g1 + ['_'] + b1 == g2 + ['_'] + b2 by {
      assert h1 == g1 + ['_'] + b1 && h2 == g2 + ['_'] + b2;
    }
    SepTailUnique(g1, b1, g2, b2, '_');
    assert (s1 + "_tile") + ['_'] + a1 == (s2 + "_tile") + ['_'] + a2 by {
      assert g1 == (s1 + "_tile") + ['_'] + a1 && g2 == (s2 + "_tile") + ['_'] + a2;
    }
    SepTailUnique(s1 + "_tile", a1, s2 + "_tile", a2, '_');
    assert s1 == (s1 + "_tile")[..|s1|] && s2 == (s2 + "_tile")[..|s2|];
  }

  /** A tile name of a supported file gives back the file and the cell. */
  lemma TileNameDetermines(name1: string, i1: nat, j1: nat, name2: string, i2: nat, j2: nat)
    requires IsSupported(name1) && IsSupported(name2)
    requires TileName(Stem(name1), i1, j1, Suffix(name1)) == TileName(Stem(name2), i2, j2, Suffix(name2))
    ensures name1 == name2 && i1 == i2 && j1 == j2
  {
    assert Lower("") == "";
    var e1, e2 := Suffix(name1), Suffix(name2);
    var a1, b1, a2, b2 := NatToString(i1), NatToString(j1), NatToString(i2), NatToString(j2);
    NoUnderscoreInDigits(a1);
    NoUnderscoreInDigits(b1);
    NoUnderscoreInDigits(a2);
    NoUnderscoreInDigits(b2);
    assert '.' !in e1[1..] && '.' !in e2[1..];
    TileNameParts(Stem(name1), a1, b1, e1, Stem(name2), a2, b2, e2);
    StemSuffixSplit(name1);
    StemSuffixSplit(name2);
    NatToStringInjective(i1, i2);
    NatToStringInjective(j1, j2);
  }

  /** The supported formats are matched whatever the case of the suffix,
      a name whose only dot is its first character has no suffix, and a
      text file is not an image. */
  lemma FormatExamples()
    ensures IsSupported("photo.PNG") && IsSupported("scan.tiff") && IsSupported("a.b.JpEg")
    ensures !IsSupported(".png") && !IsSupported("notes.txt") && !IsSupported("png")
  {
    LastIndexOfUnique("photo.PNG", '.', 5);
    assert Lower(".PNG") == ".png";
    LastIndexOfUnique("scan.tiff", '.', 4);
    assert Lower(".tiff") == ".tiff";
    LastIndexOfUnique("a.b.JpEg", '.', 3);
    assert Lower(".JpEg") == ".jpeg";
    LastIndexOfUnique(".png", '.', 0);
    assert Lower("") == "";
    LastIndexOfUnique("notes.txt", '.', 5);
    assert Lower(".txt") == ".txt";
    LastIndexOfUnique("png", '.', -1);
  }

  /** The four tiles of "photo.png" on a 2 by 2 grid are named
      photo_tile_<row>_<col>.png. */
  lemma TileNameExamples()
    ensures TileName("photo", 0, 0, ".png") == "photo_tile_0_0.png"
    ensures TileName("photo", 0, 1, ".png") == "photo_tile_0_1.png"
    ensures TileName("photo", 1, 0, ".png") == "photo_tile_1_0.png"
    ensures TileName("photo", 1, 1, ".png") == "photo_tile_1_1.png"
  {
    OneDigitTileName("photo", 0, 0, ".png");
    OneDigitTileName("photo", 0, 1, ".png");
    OneDigitTileName("photo", 1, 0, ".png");
    OneDigitTileName("photo", 1, 1, ".png");
  }

  /** Below ten a cell number is written as its single digit. */
  lemma OneDigitTileName(stem: string, i: nat, j: nat, ext: string)
    requires i < 10 && j < 10
    ensures TileName(stem, i, j, ext) == stem + "_tile_" + [DigitChar(i)] + "_" + [DigitChar(j)] + ext
  {
  }
}

=== FILE: output.dfy ===
/** The output directory as a map from file name to content, and the
    save-or-skip rule `tile_image` applies to every tile it produces. */
module Output {
  import opened Grid

  /** What a file of the output directory holds: the crop of `rect` out of
      the image named `source`, or a file the tiler did not write. */
  datatype Content = Crop(source: string, rect: Rect) | Foreign(id: nat)

  type Dir = map<string, Content>

  /** One tile ready to be saved under `name`. */
  datatype Write = Write(name: string, content: Content)

  /** What happened to one tile: saved, or skipped because a file of that
      name existed and overwriting was off. */
  datatype Event = Saved(name: string) | Skipped(name: string)

  datatype Run = Run(dir: Dir, log: seq<Event>)

  function Names(ws: seq<Write>): set<string> {
    set k | 0 <= k < |ws| :: ws[k].name
  }

  predicate DistinctNames(ws: seq<Write>) {
    forall k1, k2 :: 0 <= k1 < k2 < |ws| ==> ws[k1].name != ws[k2].name
  }

  /** A write happens unless overwriting is off and the name already exists. */
  predicate Writes(dir: Dir, name: string, overwrite: bool) {
    overwrite || name !in dir
  }

  lemma NamesCons(ws: seq<Write>)
    requires |ws| > 0
    ensures Names(ws) == {ws[0].name} + Names(ws[1..])
  {
    forall n | n in Names(ws) ensures n in {ws[0].name} + Names(ws[1..]) {
      var k :| 0 <= k < |ws| && ws[k].name == n;
      if k > 0 {
        assert ws[1..][k - 1].name == n;
      }
    }
  }

  /** One step of `Save`: if a run of the rest of the writes, started in the
      directory the first write leaves behind, keeps `Save`'s promises, then
      so does the whole run. */
  lemma SaveStep(dir: Dir, ws: seq<Write>, overwrite: bool, next: Dir, rest: Run, log: seq<Event>)
    requires |ws| > 0
    requires next == if Writes(dir, ws[0].name, overwrite) then dir[ws[0].name := ws[0].content] else dir
    requires log == [if Writes(dir, ws[0].name, overwrite) then Saved(ws[0].name) else Skipped(ws[0].name)] + rest.log
    requires |rest.log| == |ws| - 1
    requires forall k :: 0 <= k < |ws| - 1 ==> rest.log[k].name == ws[1..][k].name
    requires rest.dir.Keys == next.Keys + Names(ws[1..])
    requires forall n :: n in next && n !in Names(ws[1..]) ==> rest.dir[n] == next[n]
    requires !overwrite ==> forall n :: n in next ==> rest.dir[n] == next[n]
    requires overwrite ==> forall k :: 0 <= k < |ws| - 1 ==> rest.log[k].Saved?
    ensures |log| == |ws|
    ensures forall k :: 0 <= k < |ws| ==> log[k].name == ws[k].name
    ensures rest.dir.Keys == dir.Keys + Names(ws)
    ensures forall n :: n in dir && n !in Names(ws) ==> rest.dir[n] == dir[n]
    ensures !overwrite ==> forall n :: n in dir ==> rest.dir[n] == dir[n]
    ensures overwrite ==> forall k :: 0 <= k < |ws| ==> log[k].Saved?
  {
    NamesCons(ws);
    forall k | 0 <= k < |ws| ensures log[k].name == ws[k].name {
      if k > 0 {
        assert log[k] == rest.log[k - 1] && ws[k] == ws[1..][k - 1];
      }
    }
    if !overwrite {
      forall n | n in dir ensures rest.dir[n] == dir[n] {
        assert n != ws[0].name ==> next[n] == dir[n];
      }
    }
  }

  /** Saves the writes in order, skipping every name already present when
      `overwrite` is off. The skip test looks at the directory as it is at
      that moment, including tiles saved earlier in the same run. */
  function Save(dir: Dir, ws: seq<Write>, overwrite: bool): (r: Run)
    ensures |r.log| == |ws|
    ensures forall k :: 0 <= k < |ws| ==> r.log[k].name == ws[k].name
    ensures r.dir.Keys == dir.Keys + Names(ws)
    ensures forall n :: n in dir && n !in Names(ws) ==> r.dir[n] == dir[n]
    ensures !overwrite ==> forall n :: n in dir ==> r.dir[n] == dir[n]
    ensures overwrite ==> forall k :: 0 <= k < |ws| ==> r.log[k].Saved?
    decreases |ws|
  {
    if |ws| == 0 then Run(dir, [])
    else
      var w := ws[0];
      var saved := Writes(dir, w.name, overwrite);
      var next := if saved then dir[w.name := w.content] else dir;
      var rest := Save(next, ws[1..], overwrite);
      var log := [if saved then Saved(w.name) else Skipped(w.name)] + rest.log;
      SaveStep(dir, ws, overwrite, next, rest, log);
      Run(rest.dir, log)
  }

  lemma DistinctTail(ws: seq<Write>)
    requires |ws| > 0 && DistinctNames(ws)
    ensures DistinctNames(ws[1..])
    ensures ws[0].name !in Names(ws[1..])
  {
    var t := ws[1..];
    forall k1, k2 | 0 <= k1 < k2 < |t| ensures t[k1].name != t[k2].name {
      assert t[k1] == ws[k1 + 1] && t[k2] == ws[k2 + 1];
    }
  }

  /** With distinct names every write sees the original directory: it is
      saved exactly when the rule lets it, and what it saves is what the
      directory ends up holding under its name. */
  lemma {:induction false} SaveDistinct(dir: Dir, ws: seq<Write>, overwrite: bool, k: nat)
    requires DistinctNames(ws)
    requires k < |ws|
    ensures var r := Save(dir, ws, overwrite);
      && (r.log[k].Saved? <==> Writes(dir, ws[k].name, overwrite))
      && (Writes(dir, ws[k].name, overwrite) ==> r.dir[ws[k].name] == ws[k].content)
    decreases |ws|
  {
    var w := ws[0];
    var saved := Writes(dir, w.name, overwrite);
    var next := if saved then dir[w.name := w.content] else dir;
    var r := Save(dir, ws, overwrite);
    var rest := Save(next, ws[1..], overwrite);
    assert r.dir == rest.dir;
    assert r.log == [if saved then Saved(w.name) else Skipped(w.name)] + rest.log;
    DistinctTail(ws);
    if k > 0 {
      var v := ws[k];
      assert ws[1..][k - 1] == v;
      assert v.name != w.name;
      assert Writes(next, v.name, overwrite) == Writes(dir, v.name, overwrite);
      SaveDistinct(next, ws[1..], overwrite, k - 1);
      assert r.log[k] == rest.log[k - 1];
    }
  }

  /** When every name is already present and overwriting is off, saving
      writes nothing and logs a skip for every tile. */
  lemma {:induction false} SaveAllPresent(dir: Dir, ws: seq<Write>)
    requires Names(ws) <= dir.Keys
    ensures Save(dir, ws, false).dir == dir
    ensures forall k :: 0 <= k < |ws| ==> Save(dir, ws, false).log[k].Skipped?
    decreases |ws|
  {
    if |ws| > 0 {
      assert ws[0].name in Names(ws);
      assert Names(ws[1..]) <= Names(ws) by {
        forall n | n in Names(ws[1..]) ensures n in Names(ws) {
          var m :| 0 <= m < |ws[1..]| && ws[1..][m].name == n;
          assert ws[m + 1].name == n;
        }
      }
      SaveAllPresent(dir, ws[1..]);
    }
  }

  /** Saving again without overwriting, after any run, changes nothing and
      skips every tile. */
  lemma SaveIdempotent(dir: Dir, ws: seq<Write>, overwrite: bool)
    ensures var once := Save(dir, ws, overwrite).dir;
      && Save(once, ws, false).dir == once
      && forall k :: 0 <= k < |ws| ==> Save(once, ws, false).log[k].Skipped?
  {
    SaveAllPresent(Save(dir, ws, overwrite).dir, ws);
  }

  /** With overwriting on, every tile holds its fresh content afterwards,
      whatever the directory held before. */
  lemma OverwriteFresh(dir: Dir, ws: seq<Write>)
    requires DistinctNames(ws)
    ensures forall k :: 0 <= k < |ws| ==> Save(dir, ws, true).dir[ws[k].name] == ws[k].content
  {
    forall k | 0 <= k < |ws| ensures Save(dir, ws, true).dir[ws[k].name] == ws[k].content {
      SaveDistinct(dir, ws, true, k);
    }
  }

  /** With overwriting on, the tiles hold what a run into an empty
      directory would have saved. */
  lemma OverwriteMatchesCleanRun(dir: Dir, ws: seq<Write>)
    requires DistinctNames(ws)
    ensures forall n :: n in Names(ws) ==> Save(dir, ws, true).dir[n] == Save(map[], ws, true).dir[n]
  {
    var r := Save(dir, ws, true).dir;
    var clean := Save(map[], ws, true).dir;
    OverwriteFresh(dir, ws);
    OverwriteFresh(map[], ws);
    forall n | n in Names(ws) ensures r[n] == clean[n] {
      var k :| 0 <= k < |ws| && ws[k].name == n;
    }
  }

  /** With overwriting on, saving twice is saving once. */
  lemma OverwriteIdempotent(dir: Dir, ws: seq<Write>)
    requires DistinctNames(ws)
    ensures Save(Save(dir, ws, true).dir, ws, true).dir == Save(dir, ws, true).dir
  {
    var r := Save(dir, ws, true).dir;
    var twice := Save(r, ws, true).dir;
    OverwriteFresh(dir, ws);
    OverwriteFresh(r, ws);
    forall n | n in twice ensures n in r && twice[n] == r[n] {
      if n in Names(ws) {
        var k :| 0 <= k < |ws| && ws[k].name == n;
      }
    }
  }
}

=== FILE: scenarios.dfy ===
/** Worked examples: a directory listing, and one image cut into a 2 by 2
    grid from the command line. */
module Scenarios {
  import opened Strings
  import opened Grid
  import opened Dimensions
  import opened Naming
  import opened Output
  import opened Tiler

  /** The names in the listing below: both images are supported, the text
      file is not. */
  lemma ListingNames()
    ensures IsSupported("a.png") && IsSupported("b.JPG") && !IsSupported("notes.txt")
  {
    LastIndexOfUnique("a.png", '.', 1);
    assert Lower(".png") == ".png";
    LastIndexOfUnique("b.JPG", '.', 1);
    assert Lower(".JPG") == ".jpg";
    LastIndexOfUnique("notes.txt", '.', 5);
    assert Lower(".txt") == ".txt";
  }

  /** After the first image of the listing below, only the second image is
      kept: the sub-directory, the text file and the special entry are
      skipped. */
  lemma SelectionTail()
    ensures Selected([Subdir("sub.png"), File("notes.txt", Pixels(1, 1)), Special("fifo"), File("b.JPG", Corrupt)])
      == [File("b.JPG", Corrupt)]
  {
    ListingNames();
    var sub, notes, fifo, b := Subdir("sub.png"), File("notes.txt", Pixels(1, 1)), Special("fifo"), File("b.JPG", Corrupt);
    assert Selected([b]) == [b] by {
      assert [b][1..] == [];
    }
    assert Selected([fifo, b]) == [b] by {
      assert [fifo, b][1..] == [b];
    }
    assert Selected([notes, fifo, b]) == [b] by {
      assert [notes, fifo, b][1..] == [fifo, b];
    }
    assert [sub, notes, fifo, b][1..] == [notes, fifo, b];
  }

  /** A listing with images in both letter cases, a sub-directory, a text
      file and a special entry: only the two images are tiled, in listing
      order. */
  lemma SelectionExample()
    ensures Selected([File("a.png", Pixels(4, 4)), Subdir("sub.png"), File("notes.txt", Pixels(1, 1)), Special("fifo"), File("b.JPG", Corrupt)])
      == [File("a.png", Pixels(4, 4)), File("b.JPG", Corrupt)]
  {
    ListingNames();
    SelectionTail();
    var a := File("a.png", Pixels(4, 4));
    var rest := [Subdir("sub.png"), File("notes.txt", Pixels(1, 1)), Special("fifo"), File("b.JPG", Corrupt)];
    assert ([a] + rest)[1..] == rest;
  }

  /** The command: tile the 100 by 100 image "photo.png" with "2x2",
      without overwriting. */
  const PhotoCommand := Command(FilePath("photo.png", Pixels(100, 100)), "2x2", false)

  const PhotoNames := {"photo_tile_0_0.png", "photo_tile_0_1.png", "photo_tile_1_0.png", "photo_tile_1_1.png"}

  lemma PhotoStem()
    ensures Stem("photo.png") == "photo" && Suffix("photo.png") == ".png"
  {
    LastIndexOfUnique("photo.png", '.', 5);
  }

  /** The tile names of "photo.png" on a 2 by 2 grid. */
  lemma PhotoTileNames()
    ensures TileNameSet("photo.png", TileSpec(2, 2)) == PhotoNames
  {
    PhotoStem();
    TileNameExamples();
    TwoByTwoNames("photo.png", 0, 1);
  }

  /** The command, run into an empty directory, yields exactly the four
      tiles photo_tile_<i>_<j>.png. */
  lemma ScenarioNames()
    ensures RunCommand(map[], PhotoCommand).dir.Keys == PhotoNames
  {
    AcceptedExamples();
    SingleImageRun(map[], PhotoCommand, TileSpec(2, 2));
    PhotoTileNames();
  }

  /** ... logs four tiles, and tile (i, j) is logged as saved at position
      2i+j and holds the 50 by 50 square whose upper-left corner is
      (50j, 50i). */
  lemma ScenarioTile(c: Cell)
    requires InGrid(TileSpec(2, 2), c)
    ensures var o := RunCommand(map[], PhotoCommand);
      var name := TileName("photo", c.row, c.col, ".png");
      && o.report.SingleImage? && o.report.result.Tiled?
      && |o.report.result.log| == 4
      && o.report.result.log[2 * c.row + c.col] == Saved(name)
      && name in o.dir
      && o.dir[name] == Crop("photo.png", Rect(50 * c.col, 50 * c.row, 50 * c.col + 50, 50 * c.row + 50))
  {
    AcceptedExamples();
    PhotoStem();
    HalvesScenario(c);
    SingleImageTile(map[], PhotoCommand, TileSpec(2, 2), c);
  }
}

=== FILE: strings.dfy ===
/** Character-level helpers: ASCII lower-casing, decimal digits and
    splitting a string on a separator character the way Python's
    `str.split(sep)` does. */
module Strings {

  predicate IsDigit(c: char) {
    '0' <= c <= '9'
  }

  predicate AllDigits(s: string) {
    forall k :: 0 <= k < |s| ==> IsDigit(s[k])
  }

  /** Lower-cases the ASCII letters A-Z and leaves every other character alone. */
  function LowerChar(c: char): char {
    if 'A' <= c <= 'Z' then (c as int - 'A' as int + 'a' as int) as char else c
  }

  function Lower(s: string): string {
    seq(|s|, k requires 0 <= k < |s| => LowerChar(s[k]))
  }

  /** Lower-casing keeps the length, leaves no upper-case ASCII letter, and
      changes `s` only where `s` had one, moving it by the distance between
      the two alphabets. */
  lemma LowerShape(s: string)
    ensures |Lower(s)| == |s|
    ensures forall k :: 0 <= k < |s| ==> !('A' <= Lower(s)[k] <= 'Z')
    ensures forall k :: 0 <= k < |s| && !('A' <= s[k] <= 'Z') ==> Lower(s)[k] == s[k]
    ensures forall k :: 0 <= k < |s| && 'A' <= s[k] <= 'Z' ==> Lower(s)[k] as int == s[k] as int + 32
  {
  }

  /** Lower-casing works character by character, so it distributes over
      concatenation. */
  lemma LowerAppend(a: string, b: string)
    ensures Lower(a + b) == Lower(a) + Lower(b)
  {
  }

  function DigitChar(d: nat): (c: char)
    requires d < 10
    ensures IsDigit(c)
  {
    (d + '0' as int) as char
  }

  function DigitValue(c: char): (d: nat)
    requires IsDigit(c)
    ensures d < 10 && DigitChar(d) == c
  {
    c as int - '0' as int
  }

  /** Decimal rendering of a natural number, as Python's `str(n)`: no sign,
      no leading zeros. */
  function NatToString(n: nat): (s: string)
    ensures |s| >= 1 && AllDigits(s)
    ensures n < 10 <==> |s| == 1
    ensures s[0] == '0' ==> n == 0
    decreases n
  {
    if n < 10 then [DigitChar(n)] else NatToString(n / 10) + [DigitChar(n % 10)]
  }

  /** The value of a string of decimal digits (most significant first). */
  function DigitsValue(s: string): nat
    requires AllDigits(s)
    decreases |s|
  {
    if |s| == 0 then 0 else DigitsValue(s[..|s| - 1]) * 10 + DigitValue(s[|s| - 1])
  }

  /** Reading back the decimal rendering of `n` gives `n`. */
  lemma {:induction false} DigitsValueOfNatToString(n: nat)
    ensures DigitsValue(NatToString(n)) == n
    decreases n
  {
    var s := NatToString(n);
    if n >= 10 {
      DigitsValueOfNatToString(n / 10);
      assert s[..|s| - 1] == NatToString(n / 10);
    }
  }

  /** Distinct numbers have distinct decimal renderings. */
  lemma NatToStringInjective(m: nat, n: nat)
    ensures NatToString(m) == NatToString(n) <==> m == n
  {
    if NatToString(m) == NatToString(n) {
      DigitsValueOfNatToString(m);
      DigitsValueOfNatToString(n);
    }
  }

  /** The inverse of `Split`: the parts with one `sep` between neighbours. */
  function Join(parts: seq<string>, sep: char): string
    decreases |parts|
  {
    if |parts| == 0 then ""
    else if |parts| == 1 then parts[0]
    else parts[0] + [sep] + Join(parts[1..], sep)
  }

  /** Python's `s.split(sep)` for a one-character separator: every
      occurrence of `sep` ends a part, so there is always one more part
      than there are separators, and parts may be empty. */
  function Split(s: string, sep: char): (parts: seq<string>)
    ensures |parts| >= 1
    ensures forall k :: 0 <= k < |parts| ==> sep !in parts[k]
    ensures Join(parts, sep) == s
    decreases |s|
  {
    if |s| == 0 then [""]
    else
      var rest := Split(s[1..], sep);
      if s[0] == sep then
        assert s == [sep] + s[1..];
        [""] + rest
      else
        var first := [s[0]] + rest[0];
        assert ([first] + rest[1..])[1..] == rest[1..];
        if |rest| == 1 then
          [first]
        else
          assert Join(rest, sep) == rest[0] + [sep] + Join(rest[1..], sep);
          [first] + rest[1..]
  }

  /** A part free of `sep` followed by a separator splits off as the first part. */
  lemma {:induction false} SplitCons(a: string, sep: char, b: string)
    requires sep !in a
    ensures Split(a + [sep] + b, sep) == [a] + Split(b, sep)
    decreases |a|
  {
    if |a| == 0 {
      assert a + [sep] + b == [sep] + b;
      assert ([sep] + b)[1..] == b;
    } else {
      assert (a + [sep] + b)[1..] == a[1..] + [sep] + b;
      SplitCons(a[1..], sep, b);
      assert [a[0]] + a[1..] == a;
    }
  }

  /** A string free of `sep` is a single part. */
  lemma {:induction false} SplitNoSeparator(a: string, sep: char)
    requires sep !in a
    ensures Split(a, sep) == [a]
    decreases |a|
  {
    if |a| > 0 {
      SplitNoSeparator(a[1..], sep);
      assert [a[0]] + a[1..] == a;
    }
  }

  /** Splitting the join of separator-free parts gives the parts back, so
      `Split` is the unique decomposition promised by its contract. */
  lemma {:induction false} SplitJoin(parts: seq<string>, sep: char)
    requires |parts| >= 1
    requires forall k :: 0 <= k < |parts| ==> sep !in parts[k]
    ensures Split(Join(parts, sep), sep) == parts
    decreases |parts|
  {
    if |parts| == 1 {
      SplitNoSeparator(parts[0], sep);
    } else {
      SplitJoin(parts[1..], sep);
      SplitCons(parts[0], sep, Join(parts[1..], sep));
      assert [parts[0]] + parts[1..] == parts;
    }
  }
}

=== FILE: tiler.dfy ===
/** `tile_image`, `process_directory` and the dispatch of `main`, over an
    abstract image decoder and the output directory of the Output module. */
module Tiler {
  import opened Base
  import opened Grid
  import opened Dimensions
  import opened Naming
  import opened Output

  /** What opening an image yields: no such file, a file the decoder
      refuses, or a decoded image of the given pixel size. */
  datatype ImageData = Missing | Corrupt | Pixels(width: nat, height: nat)

  /** The per-image outcome: tiled (with the save/skip log), or one of the
      two errors that are reported and then passed over. */
  datatype TileResult = Tiled(log: seq<Event>) | ImageNotFound | ImageDecodeError

  datatype Step = Step(dir: Dir, result: TileResult)

  /** The tile of cell `c`: its name and the crop it holds. */
  function TileWrite(source: string, width: nat, height: nat, spec: TileSpec, c: Cell): Write {
    Write(TileName(Stem(source), c.row, c.col, Suffix(source)), Crop(source, CellRect(width, height, spec, c)))
  }

  /** The tiles of one image in the order `tile_image` produces them. */
  function TileWrites(source: string, width: nat, height: nat, spec: TileSpec): seq<Write> {
    var cells := Cells(spec);
    seq(|cells|, k requires 0 <= k < |cells| => TileWrite(source, width, height, spec, cells[k]))
  }

  /** The names of all tiles of an image. */
  function TileNameSet(source: string, spec: TileSpec): set<string> {
    set i: nat, j: nat | i < spec.rows && j < spec.cols :: TileName(Stem(source), i, j, Suffix(source))
  }

  /** One tile per cell, in row-major order. */
  lemma TileWritesAt(source: string, width: nat, height: nat, spec: TileSpec, c: Cell)
    requires InGrid(spec, c)
    ensures var ws := TileWrites(source, width, height, spec);
      && |ws| == spec.rows * spec.cols
      && CellIndex(spec, c) < |ws|
      && ws[CellIndex(spec, c)] == TileWrite(source, width, height, spec, c)
  {
    CellIndexInverse(spec, c);
  }

  /** No two tiles of an image share a name. */
  lemma TileWritesDistinct(source: string, width: nat, height: nat, spec: TileSpec)
    ensures DistinctNames(TileWrites(source, width, height, spec))
  {
    var ws := TileWrites(source, width, height, spec);
    forall k1, k2 | 0 <= k1 < k2 < |ws| ensures ws[k1].name != ws[k2].name {
      var a, b := CellAt(spec, k1), CellAt(spec, k2);
      CellAtInverse(spec, k1);
      CellAtInverse(spec, k2);
      assert ws[k1].name == TileName(Stem(source), a.row, a.col, Suffix(source));
      assert ws[k2].name == TileName(Stem(source), b.row, b.col, Suffix(source));
      TileNameInjective(Stem(source), Suffix(source), a.row, a.col, b.row, b.col);
    }
  }

  /** The tiles of an image are saved under exactly its tile names. */
  lemma TileWritesNames(source: string, width: nat, height: nat, spec: TileSpec)
    ensures Names(TileWrites(source, width, height, spec)) == TileNameSet(source, spec)
  {
    var ws := TileWrites(source, width, height, spec);
    var stem, ext := Stem(source), Suffix(source);
    forall n | n in TileNameSet(source, spec) ensures n in Names(ws) {
      var i: nat, j: nat :| i < spec.rows && j < spec.cols && n == TileName(stem, i, j, ext);
      TileWritesAt(source, width, height, spec, Cell(i, j));
    }
    forall n | n in Names(ws) ensures n in TileNameSet(source, spec) {
      var k :| 0 <= k < |ws| && ws[k].name == n;
      CellAtInverse(spec, k);
      var c := CellAt(spec, k);
      assert n == TileName(stem, c.row, c.col, ext);
    }
  }

  /** `tile_image`: open the image, then save every tile of it under the
      save-or-skip rule; an image that cannot be opened leaves the output
      directory as it was. */
  function TileImage(dir: Dir, source: string, data: ImageData, spec: TileSpec, overwrite: bool): (s: Step)
    ensures s.result.ImageNotFound? <==> data.Missing?
    ensures s.result.ImageDecodeError? <==> data.Corrupt?
    ensures !data.Pixels? ==> s.dir == dir
    ensures data.Pixels? ==> s.dir.Keys == dir.Keys + TileNameSet(source, spec)
    ensures data.Pixels? ==> |s.result.log| == spec.rows * spec.cols
    ensures !overwrite ==> forall n :: n in dir ==> s.dir[n] == dir[n]
    ensures forall n :: n in dir && n !in TileNameSet(source, spec) ==> s.dir[n] == dir[n]
  {
    match data
    case Missing => Step(dir, ImageNotFound)
    case Corrupt => Step(dir, ImageDecodeError)
    case Pixels(width, height) =>
      var ws := TileWrites(source, width, height, spec);
      TileWritesNames(source, width, height, spec);
      var r := Save(dir, ws, overwrite);
      Step(r.dir, Tiled(r.log))
  }

  /** Tile (i, j) of a decoded image ends up holding the crop of cell (i, j)
      whenever the rule writes it, and its log entry says whether it did. */
  lemma TileImageCell(dir: Dir, source: string, width: nat, height: nat, spec: TileSpec, overwrite: bool, c: Cell)
    requires InGrid(spec, c)
    ensures CellIndex(spec, c) < spec.rows * spec.cols
    ensures var s := TileImage(dir, source, Pixels(width, height), spec, overwrite);
      var name := TileName(Stem(source), c.row, c.col, Suffix(source));
      && (s.result.log[CellIndex(spec, c)] == Saved(name) <==> Writes(dir, name, overwrite))
      && (Writes(dir, name, overwrite) ==> s.dir[name] == Crop(source, CellRect(width, height, spec, c)))
  {
    var ws := TileWrites(source, width, height, spec);
    var k := CellIndex(spec, c);
    TileWritesAt(source, width, height, spec, c);
    TileWritesDistinct(source, width, height, spec);
    TileWritesNames(source, width, height, spec);
    var r := Save(dir, ws, overwrite);
    assert TileImage(dir, source, Pixels(width, height), spec, overwrite) == Step(r.dir, Tiled(r.log));
    SaveDistinct(dir, ws, overwrite, k);
    assert r.log[k].name == ws[k].name;
  }

  /** An entry of the input directory: a file (with what opening it as an
      image yields), a sub-directory, or anything else. */
  datatype Entry = File(name: string, data: ImageData) | Subdir(name: string) | Special(name: string)

  /** `process_directory` tiles an entry exactly when it is a file with a
      supported suffix; sub-directories are passed over. */
  predicate Selects(e: Entry) {
    e.File? && IsSupported(e.name)
  }

  /** `r` is what tiling the file `e` reports: not found, a decode error, or
      one log event per cell, according to what opening the file yields. */
  predicate IsReportOf(r: TileResult, e: Entry, spec: TileSpec) {
    && e.File?
    && (r.ImageNotFound? <==> e.data.Missing?)
    && (r.ImageDecodeError? <==> e.data.Corrupt?)
    && (r.Tiled? ==> |r.log| == spec.rows * spec.cols)
  }

  /** The entries a directory run tiles, in enumeration order. */
  function Selected(entries: seq<Entry>): seq<Entry>
    decreases |entries|
  {
    if |entries| == 0 then []
    else if Selects(entries[0]) then [entries[0]] + Selected(entries[1..])
    else Selected(entries[1..])
  }

  /** An entry is tiled exactly when it is listed and selected. */
  lemma {:induction false} SelectedMembers(entries: seq<Entry>)
    ensures forall e :: e in Selected(entries) <==> e in entries && Selects(e)
    decreases |entries|
  {
    if |entries| > 0 {
      SelectedMembers(entries[1..]);
      assert entries == [entries[0]] + entries[1..];
    }
  }

  /** Selection keeps the enumeration order: selecting from two listings
      one after the other is selecting from their concatenation. */
  lemma {:induction false} SelectedAppend(a: seq<Entry>, b: seq<Entry>)
    ensures Selected(a + b) == Selected(a) + Selected(b)
    decreases |a|
  {
    if |a| > 0 {
      assert (a + b)[1..] == a[1..] + b;
      SelectedAppend(a[1..], b);
    } else {
      assert a + b == b;
    }
  }

  lemma SelectedOne(e: Entry)
    ensures Selected([e]) == if Selects(e) then [e] else []
  {
    assert [e][1..] == [];
  }

  datatype FileReport = FileReport(name: string, result: TileResult)

  datatype Batch = Batch(dir: Dir, reports: seq<FileReport>)

  /** `rs` reports on `files` one by one, in order: the same names, and
      each result the one its file yields. */
  predicate Reports(rs: seq<FileReport>, files: seq<Entry>, spec: TileSpec) {
    && |rs| == |files|
    && forall k :: 0 <= k < |rs| ==> rs[k].name == files[k].name && IsReportOf(rs[k].result, files[k], spec)
  }

  /** Reporting on one more file in front keeps the correspondence. */
  lemma ReportsCons(r: FileReport, e: Entry, rs: seq<FileReport>, files: seq<Entry>, spec: TileSpec)
    requires r.name == e.name && IsReportOf(r.result, e, spec)
    requires Reports(rs, files, spec)
    ensures Reports([r] + rs, [e] + files, spec)
  {
  }

  /** All tile names a directory run can create from these entries. */
  function Produced(entries: seq<Entry>, spec: TileSpec): set<string>
    decreases |entries|
  {
    if |entries| == 0 then {}
    else
      var e := entries[0];
      (if Selects(e) && e.data.Pixels? then TileNameSet(e.name, spec) else {}) + Produced(entries[1..], spec)
  }

  /** The loop of `process_directory`: each selected file is tiled into the
      directory as the files before it left it, and reported in turn. */
  function WalkEntries(dir: Dir, entries: seq<Entry>, spec: TileSpec, overwrite: bool): (b: Batch)
    ensures Reports(b.reports, Selected(entries), spec)
    decreases |entries|
  {
    if |entries| == 0 then Batch(dir, [])
    else
      var e := entries[0];
      if Selects(e) then
        var s := TileImage(dir, e.name, e.data, spec, overwrite);
        var rest := WalkEntries(s.dir, entries[1..], spec, overwrite);
        ReportsCons(FileReport(e.name, s.result), e, rest.reports, Selected(entries[1..]), spec);
        Batch(rest.dir, [FileReport(e.name, s.result)] + rest.reports)
      else
        WalkEntries(dir, entries[1..], spec, overwrite)
  }

  /** A directory run adds exactly the tile names of the selected images
      that open. */
  lemma {:induction false} WalkEntriesKeys(dir: Dir, entries: seq<Entry>, spec: TileSpec, overwrite: bool)
    ensures WalkEntries(dir, entries, spec, overwrite).dir.Keys == dir.Keys + Produced(entries, spec)
    decreases |entries|
  {
    if |entries| > 0 {
      var e := entries[0];
      if Selects(e) {
        var s := TileImage(dir, e.name, e.data, spec, overwrite);
        WalkEntriesKeys(s.dir, entries[1..], spec, overwrite);
      } else {
        WalkEntriesKeys(dir, entries[1..], spec, overwrite);
      }
    }
  }

  /** A directory run changes no file outside the tile names it produces. */
  lemma {:induction false} WalkEntriesUntouched(dir: Dir, entries: seq<Entry>, spec: TileSpec, overwrite: bool)
    ensures var b := WalkEntries(dir, entries, spec, overwrite);
      forall n :: n in dir && n !in Produced(entries, spec) ==> n in b.dir && b.dir[n] == dir[n]
    decreases |entries|
  {
    if |entries| > 0 {
      var e := entries[0];
      if Selects(e) {
        var s := TileImage(dir, e.name, e.data, spec, overwrite);
        WalkEntriesUntouched(s.dir, entries[1..], spec, overwrite);
      } else {
        WalkEntriesUntouched(dir, entries[1..], spec, overwrite);
      }
    }
  }

  /** Without overwriting, a directory run changes no existing file. */
  lemma {:induction false} WalkEntriesKeeps(dir: Dir, entries: seq<Entry>, spec: TileSpec)
    ensures var b := WalkEntries(dir, entries, spec, false);
      forall n :: n in dir ==> n in b.dir && b.dir[n] == dir[n]
    decreases |entries|
  {
    if |entries| > 0 {
      var e := entries[0];
      if Selects(e) {
        var s := TileImage(dir, e.name, e.data, spec, false);
        WalkEntriesKeeps(s.dir, entries[1..], spec);
      } else {
        WalkEntriesKeeps(dir, entries[1..], spec);
      }
    }
  }

  /** The three facts above together: what a directory run does to the
      output directory. */
  lemma WalkEntriesDir(dir: Dir, entries: seq<Entry>, spec: TileSpec, overwrite: bool)
    ensures var b := WalkEntries(dir, entries, spec, overwrite);
      && b.dir.Keys == dir.Keys + Produced(entries, spec)
      && (!overwrite ==> forall n :: n in dir ==> b.dir[n] == dir[n])
      && (forall n :: n in dir && n !in Produced(entries, spec) ==> b.dir[n] == dir[n])
  {
    WalkEntriesKeys(dir, entries, spec, overwrite);
    WalkEntriesUntouched(dir, entries, spec, overwrite);
    if !overwrite {
      WalkEntriesKeeps(dir, entries, spec);
    }
  }

  /** No two entries of a listing share a name, as in any directory. */
  predicate DistinctListing(entries: seq<Entry>) {
    forall i, j :: 0 <= i < j < |entries| ==> entries[i].name != entries[j].name
  }

  /** Images with different names never share a tile name. */
  lemma TileNameNotOf(name: string, i: nat, j: nat, other: string, spec: TileSpec)
    requires IsSupported(name) && IsSupported(other) && name != other
    ensures TileName(Stem(name), i, j, Suffix(name)) !in TileNameSet(other, spec)
  {
    var n := TileName(Stem(name), i, j, Suffix(name));
    if n in TileNameSet(other, spec) {
      var i2: nat, j2: nat :| i2 < spec.rows && j2 < spec.cols && n == TileName(Stem(other), i2, j2, Suffix(other));
      TileNameDetermines(name, i, j, other, i2, j2);
      assert false;
    }
  }

  /** A tile name of an image is produced by no entry of a listing that
      does not hold that image. */
  lemma {:induction false} TileNameNotProduced(name: string, i: nat, j: nat, es: seq<Entry>, spec: TileSpec)
    requires IsSupported(name)
    requires forall m :: 0 <= m < |es| ==> es[m].name != name
    ensures TileName(Stem(name), i, j, Suffix(name)) !in Produced(es, spec)
    decreases |es|
  {
    if |es| > 0 {
      if Selects(es[0]) && es[0].data.Pixels? {
        TileNameNotOf(name, i, j, es[0].name, spec);
      }
      TileNameNotProduced(name, i, j, es[1..], spec);
    }
  }

  /** Tiling an image leaves every name outside its tiles as it was. */
  lemma TileImageOther(dir: Dir, source: string, data: ImageData, spec: TileSpec, overwrite: bool, n: string)
    requires n !in TileNameSet(source, spec)
    ensures var s := TileImage(dir, source, data, spec, overwrite);
      (n in s.dir <==> n in dir) && (n in dir ==> s.dir[n] == dir[n])
  {
  }

  /** The tile of cell `c` of the decoded file `e`, after a run that started
      from `before` and left `after`: it is there, holding the crop of the
      cell when the save-or-skip rule writes it and its old content when
      the rule skips it. */
  predicate TileSaved(before: Dir, after: Dir, e: Entry, spec: TileSpec, overwrite: bool, c: Cell) {
    var n := TileName(Stem(e.name), c.row, c.col, Suffix(e.name));
    && e.File? && e.data.Pixels?
    && n in after
    && after[n] == if Writes(before, n, overwrite) then Crop(e.name, CellRect(e.data.width, e.data.height, spec, c)) else before[n]
  }

  /** Report `r` is the report of `e` and logs the tile of cell `c` as saved,
      at the cell's position, exactly when the save-or-skip rule writes it
      over `before`. */
  predicate TileLogged(before: Dir, r: FileReport, e: Entry, spec: TileSpec, overwrite: bool, c: Cell) {
    var n := TileName(Stem(e.name), c.row, c.col, Suffix(e.name));
    && r.name == e.name && r.result.Tiled?
    && 0 <= CellIndex(spec, c) < |r.result.log|
    && (r.result.log[CellIndex(spec, c)] == Saved(n) <==> Writes(before, n, overwrite))
  }

  /** Both: what the run left in the tile and what it logged for it. */
  predicate TileOutcome(before: Dir, after: Dir, r: FileReport, e: Entry, spec: TileSpec, overwrite: bool, c: Cell) {
    TileSaved(before, after, e, spec, overwrite, c) && TileLogged(before, r, e, spec, overwrite, c)
  }

  /** The first entry of a listing, when selected and decoded, gets the
      tile of cell `c` logged in the first report; the images after it do
      not touch that tile. */
  lemma WalkFirstTile(dir: Dir, entries: seq<Entry>, spec: TileSpec, overwrite: bool, c: Cell)
    requires DistinctListing(entries)
    requires |entries| > 0 && Selects(entries[0]) && entries[0].data.Pixels? && InGrid(spec, c)
    ensures 0 < |WalkEntries(dir, entries, spec, overwrite).reports|
    ensures var b := WalkEntries(dir, entries, spec, overwrite);
      TileOutcome(dir, b.dir, b.reports[0], entries[0], spec, overwrite, c)
  {
    var e, rest := entries[0], entries[1..];
    var n := TileName(Stem(e.name), c.row, c.col, Suffix(e.name));
    var s := TileImage(dir, e.name, e.data, spec, overwrite);
    TileImageCell(dir, e.name, e.data.width, e.data.height, spec, overwrite, c);
    assert n in TileNameSet(e.name, spec);
    TileNameNotProduced(e.name, c.row, c.col, rest, spec);
    WalkEntriesUntouched(s.dir, rest, spec, overwrite);
  }

  /** The number of entries among the first `k` of the listing that a
      directory run tiles. */
  function SelectedBefore(entries: seq<Entry>, k: nat): (m: nat)
    requires k <= |entries|
    ensures m <= k
    decreases k
  {
    if k == 0 then 0
    else (if Selects(entries[0]) then 1 else 0) + SelectedBefore(entries[1..], k - 1)
  }

  /** Counting the selected entries before position `k` is selecting from
      the first `k` entries. */
  lemma {:induction false} SelectedBeforePrefix(entries: seq<Entry>, k: nat)
    requires k <= |entries|
    ensures SelectedBefore(entries, k) == |Selected(entries[..k])|
    decreases k
  {
    if k > 0 {
      SelectedBeforePrefix(entries[1..], k - 1);
      assert entries[..k][1..] == entries[1..][..k - 1];
    }
  }

  /** What a tile holds after a run reads the same against two starting
      directories that agree on the tile's name. */
  lemma TileSavedBefore(before1: Dir, before2: Dir, after: Dir, e: Entry, spec: TileSpec, overwrite: bool, c: Cell)
    requires var n := TileName(Stem(e.name), c.row, c.col, Suffix(e.name));
      (n in before1 <==> n in before2) && (n in before1 ==> before1[n] == before2[n])
    requires TileSaved(before1, after, e, spec, overwrite, c)
    ensures TileSaved(before2, after, e, spec, overwrite, c)
  {
  }

  /** What is logged for a tile reads the same against two starting
      directories that both hold, or both lack, the tile's name. */
  lemma TileLoggedBefore(before1: Dir, before2: Dir, r: FileReport, e: Entry, spec: TileSpec, overwrite: bool, c: Cell)
    requires var n := TileName(Stem(e.name), c.row, c.col, Suffix(e.name));
      n in before1 <==> n in before2
    requires TileLogged(before1, r, e, spec, overwrite, c)
    ensures TileLogged(before2, r, e, spec, overwrite, c)
  {
  }

  /** A directory run whose first entry is selected ends in the directory
      the rest of the run leaves after that entry is tiled. */
  lemma DirHead(dir: Dir, entries: seq<Entry>, spec: TileSpec, overwrite: bool)
    requires 0 < |entries| && Selects(entries[0])
    ensures var s := TileImage(dir, entries[0].name, entries[0].data, spec, overwrite);
      WalkEntries(dir, entries, spec, overwrite).dir == WalkEntries(s.dir, entries[1..], spec, overwrite).dir
  {
  }

  /** A directory run passes over a first entry it does not select. */
  lemma WalkSkipsHead(dir: Dir, entries: seq<Entry>, spec: TileSpec, overwrite: bool)
    requires 0 < |entries| && !Selects(entries[0])
    ensures WalkEntries(dir, entries, spec, overwrite) == WalkEntries(dir, entries[1..], spec, overwrite)
  {
  }

  /** What the rest of the run, after a selected first entry, leaves in the
      `k`-th entry's tile reads the same against the directory before that
      first entry was tiled: the two images share no tile name. */
  lemma SavedRest(dir: Dir, entries: seq<Entry>, spec: TileSpec, overwrite: bool, k: nat, c: Cell)
    requires DistinctListing(entries)
    requires 0 < k < |entries| && Selects(entries[0]) && Selects(entries[k]) && entries[k].data.Pixels? && InGrid(spec, c)
    ensures var s := TileImage(dir, entries[0].name, entries[0].data, spec, overwrite);
      TileSaved(dir, WalkEntries(s.dir, entries[1..], spec, overwrite).dir, entries[k], spec, overwrite, c)
    decreases |entries|, 0
  {
    var e, e0, rest := entries[k], entries[0], entries[1..];
    var s := TileImage(dir, e0.name, e0.data, spec, overwrite);
    var n := TileName(Stem(e.name), c.row, c.col, Suffix(e.name));
    assert DistinctListing(rest);
    assert rest[k - 1] == e;
    WalkEntriesSaved(s.dir, rest, spec, overwrite, k - 1, c);
    assert e0.name != e.name;
    TileNameNotOf(e.name, c.row, c.col, e0.name, spec);
    TileImageOther(dir, e0.name, e0.data, spec, overwrite, n);
    TileSavedBefore(s.dir, dir, WalkEntries(s.dir, rest, spec, overwrite).dir, e, spec, overwrite, c);
  }

  /** One step of `WalkEntriesSaved`: past a selected first entry. */
  lemma SavedPastImage(dir: Dir, entries: seq<Entry>, spec: TileSpec, overwrite: bool, k: nat, c: Cell)
    requires DistinctListing(entries)
    requires 0 < k < |entries| && Selects(entries[0]) && Selects(entries[k]) && entries[k].data.Pixels? && InGrid(spec, c)
    ensures TileSaved(dir, WalkEntries(dir, entries, spec, overwrite).dir, entries[k], spec, overwrite, c)
    decreases |entries|, 1
  {
    SavedRest(dir, entries, spec, overwrite, k, c);
    DirHead(dir, entries, spec, overwrite);
  }

  /** The other step of `WalkEntriesSaved`: past a first entry the run
      skips. */
  lemma SavedPastSkipped(dir: Dir, entries: seq<Entry>, spec: TileSpec, overwrite: bool, k: nat, c: Cell)
    requires DistinctListing(entries)
    requires 0 < k < |entries| && !Selects(entries[0]) && Selects(entries[k]) && entries[k].data.Pixels? && InGrid(spec, c)
    ensures TileSaved(dir, WalkEntries(dir, entries, spec, overwrite).dir, entries[k], spec, overwrite, c)
    decreases |entries|, 0
  {
    var rest := entries[1..];
    assert DistinctListing(rest);
    assert rest[k - 1] == entries[k];
    WalkEntriesSaved(dir, rest, spec, overwrite, k - 1, c);
    WalkSkipsHead(dir, entries, spec, overwrite);
  }

  /** What the `k`-th entry's tile of cell `c` holds after a directory run:
      no other image of the listing touches it. */
  lemma {:induction false} WalkEntriesSaved(dir: Dir, entries: seq<Entry>, spec: TileSpec, overwrite: bool, k: nat, c: Cell)
    requires DistinctListing(entries)
    requires k < |entries| && Selects(entries[k]) && entries[k].data.Pixels? && InGrid(spec, c)
    ensures TileSaved(dir, WalkEntries(dir, entries, spec, overwrite).dir, entries[k], spec, overwrite, c)
    decreases |entries|, 2
  {
    if k == 0 {
      WalkFirstTile(dir, entries, spec, overwrite, c);
    } else if Selects(entries[0]) {
      SavedPastImage(dir, entries, spec, overwrite, k, c);
    } else {
      SavedPastSkipped(dir, entries, spec, overwrite, k, c);
    }
  }

  /** A directory run whose first entry is selected reports that entry
      first, ahead of the reports of the rest of the listing. */
  lemma ReportsHead(dir: Dir, entries: seq<Entry>, spec: TileSpec, overwrite: bool)
    requires 0 < |entries| && Selects(entries[0])
    ensures var s := TileImage(dir, entries[0].name, entries[0].data, spec, overwrite);
      WalkEntries(dir, entries, spec, overwrite).reports
        == [FileReport(entries[0].name, s.result)] + WalkEntries(s.dir, entries[1..], spec, overwrite).reports
  {
  }

  /** Putting a report in front moves every later report up by one. */
  lemma ReportShift(all: seq<FileReport>, r0: FileReport, rs: seq<FileReport>, i: nat, j: nat)
    requires all == [r0] + rs && i == j + 1 && j < |rs|
    ensures i < |all| && all[i] == rs[j]
  {
  }

  /** A selected first entry counts once before every later position. */
  lemma SelectedBeforeHead(entries: seq<Entry>, k: nat)
    requires 0 < k <= |entries| && Selects(entries[0])
    ensures SelectedBefore(entries, k) == SelectedBefore(entries[1..], k - 1) + 1
  {
  }

  /** Past a selected first entry, the `k`-th entry's report is the report
      the rest of the run gives it, one position further on. */
  lemma ReportPastImage(dir: Dir, entries: seq<Entry>, spec: TileSpec, overwrite: bool, k: nat)
    requires 0 < k < |entries| && Selects(entries[0])
    requires var s := TileImage(dir, entries[0].name, entries[0].data, spec, overwrite);
      SelectedBefore(entries[1..], k - 1) < |WalkEntries(s.dir, entries[1..], spec, overwrite).reports|
    ensures var s := TileImage(dir, entries[0].name, entries[0].data, spec, overwrite);
      && SelectedBefore(entries, k) < |WalkEntries(dir, entries, spec, overwrite).reports|
      && WalkEntries(dir, entries, spec, overwrite).reports[SelectedBefore(entries, k)]
         == WalkEntries(s.dir, entries[1..], spec, overwrite).reports[SelectedBefore(entries[1..], k - 1)]
  {
    var s := TileImage(dir, entries[0].name, entries[0].data, spec, overwrite);
    ReportsHead(dir, entries, spec, overwrite);
    SelectedBeforeHead(entries, k);
    ReportShift(WalkEntries(dir, entries, spec, overwrite).reports, FileReport(entries[0].name, s.result),
      WalkEntries(s.dir, entries[1..], spec, overwrite).reports, SelectedBefore(entries, k), SelectedBefore(entries[1..], k - 1));
  }

  /** Past a first entry the run skips, the `k`-th entry's report is the
      report the rest of the run gives it, at the same position. */
  lemma ReportPastSkipped(dir: Dir, entries: seq<Entry>, spec: TileSpec, overwrite: bool, k: nat)
    requires 0 < k < |entries| && !Selects(entries[0])
    requires SelectedBefore(entries[1..], k - 1) < |WalkEntries(dir, entries[1..], spec, overwrite).reports|
    ensures SelectedBefore(entries, k) == SelectedBefore(entries[1..], k - 1)
    ensures WalkEntries(dir, entries, spec, overwrite) == WalkEntries(dir, entries[1..], spec, overwrite)
  {
  }

  /** What the rest of the run, after a selected first entry, logs for the
      `k`-th entry reads the same against the directory before that first
      entry was tiled: the two images share no tile name. */
  lemma LoggedRest(dir: Dir, entries: seq<Entry>, spec: TileSpec, overwrite: bool, k: nat, c: Cell)
    requires DistinctListing(entries)
    requires 0 < k < |entries| && Selects(entries[0]) && Selects(entries[k]) && entries[k].data.Pixels? && InGrid(spec, c)
    ensures var s := TileImage(dir, entries[0].name, entries[0].data, spec, overwrite);
      var b := WalkEntries(s.dir, entries[1..], spec, overwrite);
      && SelectedBefore(entries[1..], k - 1) < |b.reports|
      && TileLogged(dir, b.reports[SelectedBefore(entries[1..], k - 1)], entries[k], spec, overwrite, c)
    decreases |entries|, 0
  {
    var e, e0, rest := entries[k], entries[0], entries[1..];
    var s := TileImage(dir, e0.name, e0.data, spec, overwrite);
    var b := WalkEntries(s.dir, rest, spec, overwrite);
    var n := TileName(Stem(e.name), c.row, c.col, Suffix(e.name));
    assert DistinctListing(rest);
    assert rest[k - 1] == e;
    WalkEntriesLogged(s.dir, rest, spec, overwrite, k - 1, c);
    assert e0.name != e.name;
    TileNameNotOf(e.name, c.row, c.col, e0.name, spec);
    TileImageOther(dir, e0.name, e0.data, spec, overwrite, n);
    TileLoggedBefore(s.dir, dir, b.reports[SelectedBefore(rest, k - 1)], e, spec, overwrite, c);
  }

  /** One step of `WalkEntriesLogged`: tiling a selected first entry puts
      its report in front and leaves the later entry's tile name as it was,
      so what is logged for that entry reads the same against `dir`. */
  lemma LoggedPastImage(dir: Dir, entries: seq<Entry>, spec: TileSpec, overwrite: bool, k: nat, c: Cell)
    requires DistinctListing(entries)
    requires 0 < k < |entries| && Selects(entries[0]) && Selects(entries[k]) && entries[k].data.Pixels? && InGrid(spec, c)
    ensures SelectedBefore(entries, k) < |WalkEntries(dir, entries, spec, overwrite).reports|
    ensures TileLogged(dir, WalkEntries(dir, entries, spec, overwrite).reports[SelectedBefore(entries, k)], entries[k], spec, overwrite, c)
    decreases |entries|, 1
  {
    LoggedRest(dir, entries, spec, overwrite, k, c);
    ReportPastImage(dir, entries, spec, overwrite, k);
  }

  /** The other step of `WalkEntriesLogged`: a first entry the run skips
      changes neither the reports nor the count before `k`. */
  lemma LoggedPastSkipped(dir: Dir, entries: seq<Entry>, spec: TileSpec, overwrite: bool, k: nat, c: Cell)
    requires DistinctListing(entries)
    requires 0 < k < |entries| && !Selects(entries[0]) && Selects(entries[k]) && entries[k].data.Pixels? && InGrid(spec, c)
    ensures SelectedBefore(entries, k) < |WalkEntries(dir, entries, spec, overwrite).reports|
    ensures TileLogged(dir, WalkEntries(dir, entries, spec, overwrite).reports[SelectedBefore(entries, k)], entries[k], spec, overwrite, c)
    decreases |entries|, 0
  {
    var rest := entries[1..];
    assert DistinctListing(rest);
    assert rest[k - 1] == entries[k];
    WalkEntriesLogged(dir, rest, spec, overwrite, k - 1, c);
    ReportPastSkipped(dir, entries, spec, overwrite, k);
  }

  /** What a directory run logs for the `k`-th entry's tile of cell `c`, in
      that entry's report: the one after the reports of the selected
      entries before it. */
  lemma {:induction false} WalkEntriesLogged(dir: Dir, entries: seq<Entry>, spec: TileSpec, overwrite: bool, k: nat, c: Cell)
    requires DistinctListing(entries)
    requires k < |entries| && Selects(entries[k]) && entries[k].data.Pixels? && InGrid(spec, c)
    ensures SelectedBefore(entries, k) < |WalkEntries(dir, entries, spec, overwrite).reports|
    ensures TileLogged(dir, WalkEntries(dir, entries, spec, overwrite).reports[SelectedBefore(entries, k)], entries[k], spec, overwrite, c)
    decreases |entries|, 2
  {
    if k == 0 {
      WalkFirstTile(dir, entries, spec, overwrite, c);
    } else if Selects(entries[0]) {
      LoggedPastImage(dir, entries, spec, overwrite, k, c);
    } else {
      LoggedPastSkipped(dir, entries, spec, overwrite, k, c);
    }
  }

  /** The loop of `process_directory` hands each selected image to
      `tile_image`: tile `c` of the `k`-th entry is logged in that image's
      report and ends up holding its crop whenever the save-or-skip rule
      writes it. */
  lemma WalkEntriesTile(dir: Dir, entries: seq<Entry>, spec: TileSpec, overwrite: bool, k: nat, c: Cell)
    requires DistinctListing(entries)
    requires k < |entries| && Selects(entries[k]) && entries[k].data.Pixels? && InGrid(spec, c)
    ensures |Selected(entries[..k])| < |WalkEntries(dir, entries, spec, overwrite).reports|
    ensures var b := WalkEntries(dir, entries, spec, overwrite);
      TileOutcome(dir, b.dir, b.reports[|Selected(entries[..k])|], entries[k], spec, overwrite, c)
  {
    WalkEntriesSaved(dir, entries, spec, overwrite, k, c);
    WalkEntriesLogged(dir, entries, spec, overwrite, k, c);
    SelectedBeforePrefix(entries, k);
  }

  datatype InputPath = FilePath(name: string, data: ImageData) | DirPath(entries: seq<Entry>) | NoSuchPath

  datatype Walk = NotADirectory | Walked(dir: Dir, reports: seq<FileReport>)

  /** `process_directory`: refuses anything but a directory, otherwise
      tiles every selected entry. */
  function ProcessDirectory(dir: Dir, input: InputPath, spec: TileSpec, overwrite: bool): (w: Walk)
    ensures w.NotADirectory? <==> !input.DirPath?
    ensures w.Walked? ==> Reports(w.reports, Selected(input.entries), spec)
    ensures w.Walked? ==> w.dir.Keys == dir.Keys + Produced(input.entries, spec)
    ensures w.Walked? && !overwrite ==> forall n :: n in dir ==> w.dir[n] == dir[n]
    ensures w.Walked? ==> forall n :: n in dir && n !in Produced(input.entries, spec) ==> w.dir[n] == dir[n]
  {
    if !input.DirPath? then NotADirectory
    else
      var b := WalkEntries(dir, input.entries, spec, overwrite);
      WalkEntriesDir(dir, input.entries, spec, overwrite);
      Walked(b.dir, b.reports)
  }

  /** A directory run saves every tile of every selected image it decodes
      under the save-or-skip rule, each holding the crop of its cell, and
      logs it in that image's report. */
  lemma ProcessDirectoryTile(dir: Dir, input: InputPath, spec: TileSpec, overwrite: bool, k: nat, c: Cell)
    requires input.DirPath? && DistinctListing(input.entries)
    requires k < |input.entries| && Selects(input.entries[k]) && input.entries[k].data.Pixels? && InGrid(spec, c)
    ensures var w := ProcessDirectory(dir, input, spec, overwrite);
      && w.Walked?
      && |Selected(input.entries[..k])| < |w.reports|
      && TileOutcome(dir, w.dir, w.reports[|Selected(input.entries[..k])|], input.entries[k], spec, overwrite, c)
  {
    WalkEntriesTile(dir, input.entries, spec, overwrite, k, c);
  }

  /** A directory run without overwriting leaves a directory that already
      holds every tile name untouched. */
  lemma {:induction false} WalkAllPresent(dir: Dir, entries: seq<Entry>, spec: TileSpec)
    requires Produced(entries, spec) <= dir.Keys
    ensures WalkEntries(dir, entries, spec, false).dir == dir
    decreases |entries|
  {
    if |entries| > 0 {
      var e := entries[0];
      if Selects(e) && e.data.Pixels? {
        var ws := TileWrites(e.name, e.data.width, e.data.height, spec);
        TileWritesNames(e.name, e.data.width, e.data.height, spec);
        SaveAllPresent(dir, ws);
      }
      WalkAllPresent(dir, entries[1..], spec);
    }
  }

  /** Running a directory a second time without overwriting changes
      nothing, whatever the first run did. */
  lemma DirectoryIdempotent(dir: Dir, input: InputPath, spec: TileSpec, overwrite: bool)
    requires input.DirPath?
    ensures var once := ProcessDirectory(dir, input, spec, overwrite).dir;
      ProcessDirectory(once, input, spec, false).dir == once
  {
    WalkAllPresent(ProcessDirectory(dir, input, spec, overwrite).dir, input.entries, spec);
  }

  /** The command line after argument parsing. */
  datatype Command = Command(input: InputPath, dimensions: string, overwrite: bool)

  datatype Report =
    | BadDimensions(error: DimensionError)
    | SingleImage(result: TileResult)
    | Directory(reports: seq<FileReport>)
    | InvalidInputPath

  datatype Outcome = Outcome(dir: Dir, report: Report)

  /** The names a run may write: the tile names of the single image when it
      opens, or those of every selected image that opens in a directory. */
  function Targets(input: InputPath, spec: TileSpec): set<string> {
    match input
    case FilePath(name, data) => if data.Pixels? then TileNameSet(name, spec) else {}
    case DirPath(entries) => Produced(entries, spec)
    case NoSuchPath => {}
  }

  /** `main`: read the grid spec, then tile the single file (whatever its
      suffix) or the directory the input path names. */
  function RunCommand(dir: Dir, cmd: Command): (o: Outcome)
    ensures o.report.BadDimensions? <==> ParseDimensions(cmd.dimensions).Err?
    ensures o.report.BadDimensions? ==> o.dir == dir && o.report.error.input == cmd.dimensions
    ensures o.report.InvalidInputPath? <==> ParseDimensions(cmd.dimensions).Ok? && cmd.input.NoSuchPath?
    ensures o.report.InvalidInputPath? ==> o.dir == dir
    ensures o.report.SingleImage? <==> ParseDimensions(cmd.dimensions).Ok? && cmd.input.FilePath?
    ensures o.report.Directory? <==> ParseDimensions(cmd.dimensions).Ok? && cmd.input.DirPath?
    ensures o.report.SingleImage? ==>
      IsReportOf(o.report.result, File(cmd.input.name, cmd.input.data), ParseDimensions(cmd.dimensions).value)
    ensures o.report.Directory? ==> Reports(o.report.reports, Selected(cmd.input.entries), ParseDimensions(cmd.dimensions).value)
    ensures dir.Keys <= o.dir.Keys
    ensures ParseDimensions(cmd.dimensions).Ok? ==>
      o.dir.Keys == dir.Keys + Targets(cmd.input, ParseDimensions(cmd.dimensions).value)
    ensures ParseDimensions(cmd.dimensions).Ok? ==> forall n :: n in dir && n !in Targets(cmd.input, ParseDimensions(cmd.dimensions).value) ==>
      o.dir[n] == dir[n]
    ensures !cmd.overwrite ==> forall n :: n in dir ==> o.dir[n] == dir[n]
  {
    match ParseDimensions(cmd.dimensions)
    case Err(e) => Outcome(dir, BadDimensions(e))
    case Ok(spec) =>
      match cmd.input
      case FilePath(name, data) =>
        var s := TileImage(dir, name, data, spec, cmd.overwrite);
        Outcome(s.dir, SingleImage(s.result))
      case DirPath(entries) =>
        var w := ProcessDirectory(dir, cmd.input, spec, cmd.overwrite);
        Outcome(w.dir, Directory(w.reports))
      case NoSuchPath => Outcome(dir, InvalidInputPath)
  }

  /** Re-running a command without overwriting leaves the output directory
      as the first run left it. */
  lemma RunIdempotent(dir: Dir, cmd: Command)
    ensures var once := RunCommand(dir, cmd).dir;
      RunCommand(once, cmd.(overwrite := false)).dir == once
  {
    var once := RunCommand(dir, cmd).dir;
    match ParseDimensions(cmd.dimensions)
    case Err(_) =>
    case Ok(spec) =>
      match cmd.input
      case FilePath(name, data) =>
        if data.Pixels? {
          var ws := TileWrites(name, data.width, data.height, spec);
          TileWritesNames(name, data.width, data.height, spec);
          SaveIdempotent(dir, ws, cmd.overwrite);
        }
      case DirPath(entries) =>
        DirectoryIdempotent(dir, cmd.input, spec, cmd.overwrite);
      case NoSuchPath =>
  }

  /** On a 2 by 2 grid an image gets exactly the four tiles (0, 0), (0, 1),
      (1, 0) and (1, 1). The row and column numbers 0 and 1 are passed in as
      `lo` and `hi` so that the verifier treats the four names as terms
      rather than computing each tile name from literal numbers. */
  lemma TwoByTwoNames(source: string, lo: nat, hi: nat)
    requires lo == 0 && hi == 1
    ensures var stem, ext := Stem(source), Suffix(source);
      TileNameSet(source, TileSpec(2, 2))
      == {TileName(stem, lo, lo, ext), TileName(stem, lo, hi, ext), TileName(stem, hi, lo, ext), TileName(stem, hi, hi, ext)}
  {
    var stem, ext := Stem(source), Suffix(source);
    var names := TileNameSet(source, TileSpec(2, 2));
    var four := {TileName(stem, lo, lo, ext), TileName(stem, lo, hi, ext), TileName(stem, hi, lo, ext), TileName(stem, hi, hi, ext)};
    forall n | n in names ensures n in four {
      var i: nat, j: nat :| i < 2 && j < 2 && n == TileName(stem, i, j, ext);
      assert (i == lo || i == hi) && (j == lo || j == hi);
    }
    assert TileName(stem, lo, lo, ext) in names;
    assert TileName(stem, lo, hi, ext) in names;
    assert TileName(stem, hi, lo, ext) in names;
    assert TileName(stem, hi, hi, ext) in names;
  }

  /** A command naming one file tiles that file once, with the grid its
      dimensions parse to. */
  lemma SingleImageRun(dir: Dir, cmd: Command, spec: TileSpec)
    requires ParseDimensions(cmd.dimensions) == Ok(spec) && cmd.input.FilePath?
    ensures var s := TileImage(dir, cmd.input.name, cmd.input.data, spec, cmd.overwrite);
      RunCommand(dir, cmd) == Outcome(s.dir, SingleImage(s.result))
  {
  }

  /** A command naming an image that opens tiles it: what tile `c` holds
      afterwards and what the report logs for it follow the save-or-skip
      rule over the starting directory. */
  lemma SingleImageTile(dir: Dir, cmd: Command, spec: TileSpec, c: Cell)
    requires ParseDimensions(cmd.dimensions) == Ok(spec) && cmd.input.FilePath? && cmd.input.data.Pixels? && InGrid(spec, c)
    ensures var o := RunCommand(dir, cmd);
      && o.report.SingleImage?
      && TileOutcome(dir, o.dir, FileReport(cmd.input.name, o.report.result), File(cmd.input.name, cmd.input.data), spec, cmd.overwrite, c)
  {
    var source, data := cmd.input.name, cmd.input.data;
    var n := TileName(Stem(source), c.row, c.col, Suffix(source));
    SingleImageRun(dir, cmd, spec);
    TileImageCell(dir, source, data.width, data.height, spec, cmd.overwrite, c);
    assert n in TileNameSet(source, spec);
  }

  /** A command naming a directory walks that directory with the grid its
      dimensions parse to, and reports one result per selected file. */
  lemma DirectoryRun(dir: Dir, cmd: Command, spec: TileSpec)
    requires ParseDimensions(cmd.dimensions) == Ok(spec) && cmd.input.DirPath?
    ensures var w := ProcessDirectory(dir, cmd.input, spec, cmd.overwrite);
      w.Walked? && RunCommand(dir, cmd) == Outcome(w.dir, Directory(w.reports))
  {
  }

  /** A command naming a directory saves tile `c` of its `k`-th entry, when
      that entry is a selected image that decodes, as the directory walk
      does. */
  lemma DirectoryRunTile(dir: Dir, cmd: Command, spec: TileSpec, k: nat, c: Cell)
    requires ParseDimensions(cmd.dimensions) == Ok(spec) && cmd.input.DirPath? && DistinctListing(cmd.input.entries)
    requires k < |cmd.input.entries| && Selects(cmd.input.entries[k]) && cmd.input.entries[k].data.Pixels? && InGrid(spec, c)
    ensures var o := RunCommand(dir, cmd);
      && o.report.Directory?
      && |Selected(cmd.input.entries[..k])| < |o.report.reports|
      && TileOutcome(dir, o.dir, o.report.reports[|Selected(cmd.input.entries[..k])|], cmd.input.entries[k], spec, cmd.overwrite, c)
  {
    DirectoryRun(dir, cmd, spec);
    ProcessDirectoryTile(dir, cmd.input, spec, cmd.overwrite, k, c);
  }
}
